=== FILE: README.md ===
# Ardent POS transaction engine in Dafny

This project models the sale and order engine of the Ardent POS backend, a
PHP API over a relational store, together with the point-of-sale cart of its
React front end. It proves properties of that model.

The store is one object, `Storage.Db`. It holds one map from id to row for each
table (products, inventory, customers, sales, orders, payments). It also holds
append-only sequences for sale items, order items and inventory movements, and
one counter per id sequence. Every handler names, in its frame, the tables it
may write. It keeps the invariant `Db.Valid()`, which has these parts:

- ids lie below their sequences;
- every product has a numeric price;
- SKUs and barcodes are unique;
- active customers' emails are unique;
- every stock row belongs to a product;
- each product's stock equals its opening quantity plus the changes logged in
  the movement log. This is the audit invariant `Storage.Balanced`, kept over a
  ghost map of opening quantities.

Requests are decoded JSON values (`Core.Value`). The PHP operators the
handlers rely on are modelled as written: `isset`, `empty`, `??`, `(int)`,
string conversion, and loose `in_array`. Money is in integer minor units.
Time, `rand` draws, the payment gateway, the JWT decoder and the keyed hash
are parameters of the handlers.

Modules, one per source file:

- `Core` — `backend/src/BaseController.php` and PHP value semantics;
- `Storage` — the tables;
- `Sales` — `SalesController::store`;
- `Orders` — `OrderController`;
- `Inventory` — `InventoryController`;
- `Payments` — `PaymentController`;
- `Dashboard` — `DashboardController`;
- `Customers` — `CustomerController`;
- `Products` — `ProductController`;
- `Cart` — `frontend/src/pages/Sales/Sales.js`.

The model keeps the behaviour of the code, including the places where it
falls short of a sound engine. Each is stated by the member named with it:

- a sale never lowers stock and logs no movement (`Sales.Store` leaves
  inventory and movements alone);
- an order trusts the client's unit prices and total (`Orders.ReserveAllShape`
  prices each line with the client's unit price; `Orders.CreateOrder` stores
  the client's `total_amount`);
- an order item with a negative quantity raises stock
  (`Orders.NegativeQuantityRaisesStock`);
- sale and order numbers collide exactly when two `rand` draws of one day
  agree (`Sales.SaleNumberCollision`, `Orders.OrderNumberCollision`);
- a status of JSON `true` passes the status check (`Orders.TrueStatusAccepted`);
- only the role spelled `Cashier` is limited to its own orders
  (`Orders.LowercaseCashierSeesAll`);
- settlement is not gated on the payment still being pending: a repeated
  verification or webhook completes the payment again, with a new gateway id
  and time (`Payments.CompletedPaymentIsRestamped`); only a repeat with the
  same data leaves the state as it was (`Payments.SettleTwiceSameState`);
- no handler ever writes a `failed` payment status: a failed verification
  changes nothing (`Payments.VerifyPayment`);
- two checkouts for one sale within a second share a reference
  (`Payments.ReferenceInjective`);
- a zero price counts as a missing field (`Products.ZeroPriceRejected`);
- a deleted product keeps its SKU (`Products.DeletedSkuStillTaken`).

## Model

| member | source | states |
|---|---|---|
| Core.ValidateRequired | backend/src/BaseController.php:42-49 | Answers false exactly when some required field is unset or empty; true means every required field is set and non-empty. |
| Core.Coalesce | backend/src/Sales/SalesController.php:137 | `??` yields the value when it is set and the default otherwise, so it is null only when the default is. |
| Core.StrToInt | backend/src/Inventory/InventoryController.php:130 | `(int)` of a string: 0 when it starts with neither a sign nor a digit; never positive after a minus sign and never negative otherwise. |
| Core.ToInt | backend/src/Inventory/InventoryController.php:130-131 | `(int)` gives 0 for every value `empty` accepts, and agrees with the number PHP arithmetic reads from a value. |
| Core.GetPagination | backend/src/BaseController.php:98-108 | Page is at least 1, and limit is between 1 and 100. Offset is (page − 1) × limit and never negative. In-range parameters are taken as given; a page below 1 becomes 1; a limit, given or default, below 1 becomes 1 and above 100 becomes 100; a missing page is 1 and a missing limit takes the default. |
| Core.BearerToken | backend/src/BaseController.php:55-59 | A token exists exactly when the header starts with `Bearer `, and the token is what follows those seven characters. |
| Core.CurrentUser | backend/src/BaseController.php:51-82 | A user is found exactly when the bearer token decodes to the id of an active user. The user returned is always active. |
| Core.RequireAuth | backend/src/BaseController.php:84-96 | 401 exactly when there is no user. 403 exactly when roles are listed and the user's role is not among them. An empty list admits every user. |
| Core.Picked | backend/src/Customers/CustomerController.php:191-198 | A field is changed exactly when it is whitelisted and set, and it takes the request's value. |
| Core.PickFields | backend/src/Customers/CustomerController.php:193-198 | The field loop of the update handlers collects exactly the whitelisted fields the request sets. |
| Core.PickedUpdate | backend/src/Products/ProductController.php:200-219 | Writing the picked fields over a row changes exactly the whitelisted fields that were set and leaves every other column alone. |
| Core.DrawText | backend/src/Sales/SalesController.php:157 | The zero-padded draw is always four digits. |
| Core.DrawTextInjective | backend/src/Orders/OrderController.php:145 | Two numbers with the same prefix are equal exactly when the draws are equal. |
| Sales.PriceItem | backend/src/Sales/SalesController.php:114-148 | Rejection cases: an item missing `product_id` or `quantity`, or whose quantity is `<= 0` as PHP 8 compares it (a number ≤ 0, or non-numeric text that is empty or starts below `0`, such as a sign or a space), is invalid; an unknown or inactive product is "not found"; stock below the quantity, or no stock row, is insufficient stock; a quantity or a given unit price that is not a number fails. A priced line is for an active product with enough stock, its id and quantity the numbers the item gives. Its unit price is the item's number when set and the product's price otherwise, and its line total is unit price × quantity. |
| Sales.TextQuantityBelowZeroInvalid | backend/src/Sales/SalesController.php:115-117 | A quantity that is empty text, or text starting with a minus sign or a space, fails the item guard with "Invalid item data" whatever the product. |
| Sales.PriceAll | backend/src/Sales/SalesController.php:113-149 | A list that prices yields one line per item. |
| Sales.PriceAllSucceeds | backend/src/Sales/SalesController.php:114-149 | The items price exactly when every item prices, and then line k is item k's priced line. |
| Sales.PriceAllFirstError | backend/src/Sales/SalesController.php:114-117 | The first failing item decides the error of the whole sale. |
| Sales.PriceAllPrefixError | backend/src/Sales/SalesController.php:208-210 | Once a prefix of the items fails, later items cannot change the outcome. |
| Sales.PriceItems | backend/src/Sales/SalesController.php:111-149 | The pricing loop produces the lines of `PriceAll`, and its subtotal is the sum of their line totals. |
| Sales.PlanSale | backend/src/Sales/SalesController.php:148-178 | The sale carries these values: the subtotal, the sum of the validated line totals; tax and discount, the numbers given or 0 when unset; the total, subtotal + tax − discount; the customer id and notes as given or null; the payment method as given; payment status `paid` by default; the given number and cashier. An item error or a non-numeric amount fails the plan. |
| Sales.SaleItems | backend/src/Sales/SalesController.php:184-197 | One `sale_items` row per validated line, in order, under the sale's id. |
| Sales.SaleNumberCollision | backend/src/Sales/SalesController.php:157 | Two sales of one day get the same number exactly when their `rand` draws agree. |
| Sales.EmptyItemsFailValidation | backend/src/Sales/SalesController.php:94-102 | An empty item list already fails the required-field check, so the separate emptiness check never decides. |
| Sales.NonListItemsMakeEmptySale | backend/src/Sales/SalesController.php:100-149 | An `items` value that is a non-empty scalar passes both checks and yields a sale with no lines and a zero subtotal. |
| Sales.RecordSale | backend/src/Sales/SalesController.php:159-197 | The sale row goes in under the next sale id, and its items are appended in line order. |
| Sales.Store | backend/src/Sales/SalesController.php:90-215 | Status codes: 401/403 by role; 400 for missing fields; 400 for item errors, which become 500 for a non-numeric amount; 201 exactly when the plan succeeds. On success the sale and its items are written; on failure sales and items are unchanged. Stock and movements are never touched. |
| Orders.Take | backend/src/Orders/OrderController.php:191-196 | Lowers the named product's stock by the quantity, leaving every other row and the row's other columns alone. |
| Orders.ReserveItem | backend/src/Orders/OrderController.php:163-205 | An item missing `product_id`, `quantity` or `unit_price` is invalid. An id or quantity that is not a number fails. Stock below the quantity throws insufficient stock, before a non-numeric unit price fails the multiplication. A committed item has three numeric fields and passed the stock check. |
| Orders.ReserveAll | backend/src/Orders/OrderController.php:163-205 | A committed loop adds one line and one movement per item and keeps the set of stock rows. |
| Orders.ReserveAllShape | backend/src/Orders/OrderController.php:177-204 | For item k, the order gets one line whose total price is quantity × unit price and exactly one `out` movement carrying the quantity and the order id. Earlier rows are kept. |
| Orders.ReserveAllStock | backend/src/Orders/OrderController.php:190-196 | A committed order lowers each product's stock by exactly the quantity its items ask for, and changes nothing else. |
| Orders.ReserveAllKeepsStock | backend/src/Orders/OrderController.php:168-175 | Stock that starts at zero or above stays at zero or above. |
| Orders.NegativeQuantityRaisesStock | backend/src/Orders/OrderController.php:173-196 | An item with a negative quantity passes the stock check and raises its product's stock. |
| Orders.ReserveItemBalanced | backend/src/Orders/OrderController.php:190-204 | Each reserved item keeps stock equal to opening quantity plus logged movements. |
| Orders.ReserveAllPrefixError | backend/src/Orders/OrderController.php:215-217 | Once a prefix of the items fails, the whole order fails the same way. |
| Orders.OrderNumberCollision | backend/src/Orders/OrderController.php:145 | Two orders of one day get the same number exactly when their draws agree. |
| Orders.StatusText | backend/src/Orders/OrderController.php:232-235 | A string passes exactly when it is one of the five statuses, and is stored as is. Loose comparison also lets `true` through. |
| Orders.TrueStatusAccepted | backend/src/Orders/OrderController.php:233-242 | JSON `true` passes the check and is stored as "1", which is not a valid status. |
| Orders.VisibleOrders | backend/src/Orders/OrderController.php:29-47 | An order is listed exactly when it matches the status filter (ignored when empty) and, for the role `Cashier`, was created by that user. |
| Orders.LowercaseCashierSeesAll | backend/src/Orders/OrderController.php:44-47 | A role spelled `cashier` sees every order. |
| Orders.ItemsOf | backend/src/Orders/OrderController.php:107-116 | The lines returned are lines of the order, and every line of the order is returned; a single row is kept exactly when it belongs to the order. |
| Orders.ItemsOfConcat | backend/src/Orders/OrderController.php:107-116 | The lines of rows split in two are the lines of the first part followed by those of the second, so insertion order is kept. |
| Orders.ItemsOfCount | backend/src/Orders/OrderController.php:107-116 | Each line of the order appears as many times as it was inserted; lines of other orders never appear. |
| Orders.ReserveStock | backend/src/Orders/OrderController.php:163-205 | One pass of the loop writes exactly what `ReserveItem` computes and keeps the ledger balanced. |
| Orders.ReserveItems | backend/src/Orders/OrderController.php:163-205 | The loop writes exactly what `ReserveAll` computes, stops at the first failing item and keeps the ledger balanced. |
| Orders.PlaceOrder | backend/src/Orders/OrderController.php:142-218 | When an item fails, the answer is 500 and the order row, its lines, the stock and the movement log are all rolled back; only the order id stays consumed. Otherwise the order row and the reservation are committed. |
| Orders.CreateOrder | backend/src/Orders/OrderController.php:125-219 | Status codes: 401/403 by role; 400 for missing fields or a non-list `items`; 500 when an item fails, with nothing written; success exactly when every item reserves. The order is stored as `pending`/`pending` with the client's total. The order id is consumed exactly when the order insert ran, whether the items then succeed or fail. |
| Orders.UpdateOrderStatus | backend/src/Orders/OrderController.php:221-253 | 400 for a missing or invalid status, 404 for a missing order. Otherwise only that order's status changes. |
| Orders.GetOrder | backend/src/Orders/OrderController.php:82-123 | 401 without a user, 404 for a missing order, 403 when a `Cashier` asks for another user's order. Otherwise the order with its lines. |
| Inventory.Status | backend/src/Inventory/InventoryController.php:59-63 | Three cases: `out_of_stock` exactly when quantity is 0; `low_stock` exactly when quantity is non-zero and at most the threshold; `in_stock` otherwise. |
| Inventory.Rank | backend/src/Inventory/InventoryController.php:68-73 | The first sort key is 1, 2 or 3 exactly as the status is out, low or in. |
| Inventory.Listed | backend/src/Inventory/InventoryController.php:21-34 | A product is listed exactly when it is active, has a stock row, and the filter keeps that row. |
| Inventory.LowFilterMatchesStatus | backend/src/Inventory/InventoryController.php:30-31 | With a non-negative threshold, `low` keeps exactly the rows that are not `in_stock`. |
| Inventory.OutFilterMatchesStatus | backend/src/Inventory/InventoryController.php:32-33 | `out` keeps exactly the `out_of_stock` rows. |
| Inventory.NegativeThresholdHidesEmptyRow | backend/src/Inventory/InventoryController.php:30-63 | An empty row with a negative threshold is `out_of_stock`, yet the `low` filter hides it. |
| Inventory.LexLeTotal | backend/src/Inventory/InventoryController.php:74 | The name order is total. |
| Inventory.LexLeTransitive | backend/src/Inventory/InventoryController.php:74 | The name order is transitive. |
| Inventory.LexLeAntisymmetric | backend/src/Inventory/InventoryController.php:74 | The name order is antisymmetric. |
| Inventory.ListingOrderTotal | backend/src/Inventory/InventoryController.php:68-74 | Any two rows are comparable, and an out-of-stock row strictly precedes every other row. |
| Inventory.ListingOrderTransitive | backend/src/Inventory/InventoryController.php:68-74 | The listing order is transitive. |
| Inventory.NewStock | backend/src/Inventory/InventoryController.php:128-166 | Quantity and threshold come from the request when set; otherwise they are kept. `last_restocked` moves exactly when quantity rises. At most one movement is logged, and none exactly when quantity is unchanged. It is `restock` for a rise and `adjustment` otherwise, carries new − old and the notes or their default, and is attributed to the user. |
| Inventory.NewStockLogsChange | backend/src/Inventory/InventoryController.php:130-154 | The logged movements add up to exactly new − old for the product, and to nothing for every other product. |
| Inventory.ThresholdOnlyLogsNothing | backend/src/Inventory/InventoryController.php:162-166 | A threshold-only update leaves quantity and restock time alone and logs nothing. |
| Inventory.WriteStock | backend/src/Inventory/InventoryController.php:137-177 | Writes the new row, appends the movements, and keeps the ledger balanced. |
| Inventory.UpdateStock | backend/src/Inventory/InventoryController.php:96-180 | 400 when neither field is set; 404 without a stock row; otherwise success, with the row and the movement log changed exactly as `NewStock` says and nothing changed on failure. |
| Payments.ReferenceInjective | backend/src/Payments/PaymentController.php:35 | Two references are equal exactly when made in the same second for sale ids with the same text. |
| Payments.ReferenceReadsBack | backend/src/Payments/PaymentController.php:35 | The reference starts with `ardent_`, its digits then read back as the time, and it ends with the sale id's text. |
| Payments.InitRequestOf | backend/src/Payments/PaymentController.php:32-47 | The gateway is sent the amount × 100 and the reference `ardent_<time>_<sale id>`. |
| Payments.InitializePayment | backend/src/Payments/PaymentController.php:20-71 | Status codes: 401 without a user; 400 for missing fields; 500 for a non-numeric amount or a gateway refusal, with nothing written. Success comes exactly when the gateway accepts. It creates one `pending` payment that stores the original amount, not the kobo amount. |
| Payments.Matching | backend/src/Payments/PaymentController.php:94 | Selects exactly the payments whose reference equals the bound value; null selects none. |
| Payments.CompleteAll | backend/src/Payments/PaymentController.php:89-96 | Every payment with the reference becomes `completed` with the gateway id and time; every other payment is unchanged. |
| Payments.MarkPaid | backend/src/Payments/PaymentController.php:99-105 | The sale a matching payment names becomes `paid` by `card`; every other sale is unchanged. |
| Payments.Settle | backend/src/Payments/PaymentController.php:88-105 | Payments are completed first. When several payments share the reference, the subquery fails and the sales are left as they were, with no rollback of the payments; otherwise the sale is marked paid. |
| Payments.SettleLeavesOthers | backend/src/Payments/PaymentController.php:138-154 | Rows the reference does not select keep their state. |
| Payments.CompleteAllKeepsMatching | backend/src/Payments/PaymentController.php:138-154 | Completing does not change which payments the reference selects, so the sale update that follows sees the same rows. |
| Payments.CompleteAllKeepsSales | backend/src/Payments/PaymentController.php:147-154 | Completing does not change which sales the reference pays. |
| Payments.CompleteAllTwice | backend/src/Payments/PaymentController.php:89-96 | Completing the same reference with the same data twice is the same as once. |
| Payments.SettleTwiceSameState | backend/src/Payments/PaymentController.php:133-154 | Settling one notification twice leaves the payments and sales of settling it once. |
| Payments.CompletedPaymentIsRestamped | backend/src/Payments/PaymentController.php:138-145 | A payment already completed is completed again with the new gateway id and time: there is no pending gate. |
| Payments.VerifyPayment | backend/src/Payments/PaymentController.php:73-119 | Status codes: 401 without a user; 400 for an empty reference; 400 unless the gateway reports `success`, with nothing changed. On success the payments and sales are settled, and then the gateway's amount divided by 100 is returned; an amount that is not a number gives 500 after the settlement has been written. |
| Payments.Naira | backend/src/Payments/PaymentController.php:109 | The naira amount times 100 is the gateway's kobo amount; a null amount is 0, and an amount that is not a number has no quotient. |
| Payments.Webhook | backend/src/Payments/PaymentController.php:121-166 | A bad signature gives 400 with no change. Any event other than `charge.success` gives 200 with no change. `charge.success` settles the payload's reference with its gateway id. |
| Dashboard.Elapsed | backend/src/Dashboard/DashboardController.php:109-118 | The five bands cover exactly their intervals: under 60 s; under 3600 s; under 86400 s; under 2592000 s; beyond. Each count n is the floor of the elapsed time over its unit and lies within the band's bounds. |
| Dashboard.TimeAgoReadsBack | backend/src/Dashboard/DashboardController.php:109-118 | Under a minute reads "Just now"; from 30 days on, the date. In between, the label ends in its unit, and the number it starts with reads back as the whole minutes, hours or days elapsed. |
| Dashboard.ElapsedMonotone | backend/src/Dashboard/DashboardController.php:112-117 | A later time never falls in an earlier band, and within a band its count does not go down. |
| Dashboard.FutureSaleIsJustNow | backend/src/Dashboard/DashboardController.php:110-112 | A sale dated in the future reads "Just now". |
| Dashboard.Sections | backend/src/Dashboard/DashboardController.php:42-76 | The sale totals are always present. `lowStockItems` appears exactly for admin, manager and inventory_staff, the product and customer counts exactly for admin and manager, and the recent sales exactly for admin, manager and cashier. |
| Dashboard.SectionsByRole | backend/src/Dashboard/DashboardController.php:42-76 | Admin and manager see all six sections; cashier sees the totals and recent sales; inventory staff see the totals and the low-stock count; an unknown spelling sees only the two totals. |
| Dashboard.GetDashboard | backend/src/Dashboard/DashboardController.php:14-107 | 401 without a user. Otherwise 200, with exactly the role's sections: the low-stock count of `Inventory.Listed` with filter `low`, the active product and customer counts, and each recent sale labelled by `timeAgo`. |
| Customers.NewCustomer | backend/src/Customers/CustomerController.php:89-102 | The new customer is active and stores the email as given. Loyalty points default to 0. |
| Customers.UniqueEmailsSet | backend/src/Customers/CustomerController.php:81-87 | Writing a row whose email no other active customer holds keeps active emails unique. |
| Customers.UpdateKeepsUniqueEmails | backend/src/Customers/CustomerController.php:178-212 | An update that passed the email check keeps active emails unique. |
| Customers.Store | backend/src/Customers/CustomerController.php:67-111 | Status codes: 400 without both names; 409 when an active customer has the email; 201 with the new id otherwise. On success exactly one row is added; on failure nothing changes. |
| Customers.Update | backend/src/Customers/CustomerController.php:163-219 | Status codes: 404 for a missing or inactive customer; 409 when another active customer has the email, the customer's own row being excluded; 400 with no whitelisted field. Otherwise only the whitelisted fields that were set change. |
| Customers.Destroy | backend/src/Customers/CustomerController.php:221-245 | An active customer becomes inactive and nothing else changes. Otherwise 404, so a second delete fails. |
| Customers.DeletedEmailIsFree | backend/src/Customers/CustomerController.php:80-87 | After a soft delete the email is free unless another active customer holds it. |
| Products.NewProduct | backend/src/Products/ProductController.php:102-118 | The new product is active, priced at the given number, and `tax_rate` defaults to 0. SKU and barcode are stored as given. |
| Products.InitialStock | backend/src/Products/ProductController.php:122-132 | The stock row takes `initial_quantity` (default 0) and `low_stock_threshold` (default 10), and fails exactly when one of them is not a number. |
| Products.ZeroPriceRejected | backend/src/Products/ProductController.php:91-95 | A zero price counts as empty and fails the required-field check. |
| Products.UniqueCodesSet | backend/src/Products/ProductController.php:138-141 | Writing a row whose codes no other row holds keeps SKUs and barcodes unique. |
| Products.UniqueCodesNoClash | backend/src/Products/ProductController.php:223-226 | In a table with unique codes a row clashes with no other row. |
| Products.InsertProduct | backend/src/Products/ProductController.php:102-132 | Adds the product and its stock row together, and keeps the ledger balanced. |
| Products.Store | backend/src/Products/ProductController.php:87-145 | Status codes: 400 for missing fields; 500 for a non-numeric price; 409 for a duplicate SKU or barcode; 500 for a non-numeric stock figure; 201 with both rows otherwise. Either both rows commit or neither. The id stays consumed once the product insert ran. |
| Products.ProductChanges | backend/src/Products/ProductController.php:198-205 | The changed fields are exactly the whitelisted ones that were set. A numeric price is stored as its number; a non-numeric price fails. |
| Products.Update | backend/src/Products/ProductController.php:179-229 | Status codes: 404 for a missing or inactive product; 400 with no whitelisted field; then 500 'Failed to update product' for a non-numeric price, checked before the unique key; then 409 for a code another product holds. Otherwise only the picked fields change. |
| Products.Destroy | backend/src/Products/ProductController.php:231-255 | An active product becomes inactive and nothing else changes. Otherwise 404. |
| Products.DeletedSkuStillTaken | backend/src/Products/ProductController.php:238-242 | A soft-deleted product keeps its SKU, so a new product with that SKU is still a duplicate. |
| Cart.IndexOf | frontend/src/pages/Sales/Sales.js:57 | Finds the first line of the product, or reports that no line has it. |
| Cart.AddToCart | frontend/src/pages/Sales/Sales.js:56-80 | A product not in the cart is appended as one unit at its price. Adding is refused, with the cart unchanged, exactly when the line already holds the product's whole stock. |
| Cart.AddExistingRaisesOneLine | frontend/src/pages/Sales/Sales.js:64-68 | Adding a product already in the cart raises only its line by one unit, re-priced. |
| Cart.AddToCartKeepsConsistent | frontend/src/pages/Sales/Sales.js:56-77 | Adding keeps at most one line per product and every line priced at unit price × quantity. |
| Cart.AddToCartAsWritten | frontend/src/pages/Sales/Sales.js:56-80 | Refuses exactly when the corrected version does, and adds a new product the same way. |
| Cart.AddToCartAsWrittenStaleTotal | frontend/src/pages/Sales/Sales.js:64-68 | Adding a second unit leaves the line total, and so the subtotal, at the price of one unit. |
| Cart.UpdateCartItem | frontend/src/pages/Sales/Sales.js:82-93 | A quantity ≤ 0 removes the line. Any other quantity sets the product's line to that quantity with line total unit price × quantity, and leaves other lines alone. |
| Cart.RemoveFromCart | frontend/src/pages/Sales/Sales.js:95-97 | The result holds exactly the lines of other products; a single line is kept exactly when it is another product's. |
| Cart.RemoveFromCartConcat | frontend/src/pages/Sales/Sales.js:96 | Removing from a cart split in two is removing from each part, in order, so the lines kept stay in their order. |
| Cart.RemoveFromCartSubtotal | frontend/src/pages/Sales/Sales.js:95-100 | Removing lowers the subtotal by exactly the product's line totals. |
| Cart.RemoveFromCartSubsequence | frontend/src/pages/Sales/Sales.js:96 | The kept lines and the product's lines together are the cart, each line as often as it was there. |
| Cart.RemoveFromCartLength | frontend/src/pages/Sales/Sales.js:96 | The cart shrinks by exactly the number of the product's lines. |
| Cart.RemoveKeepsConsistent | frontend/src/pages/Sales/Sales.js:95-97 | Removing keeps at most one line per product and every line priced. |
| Cart.SubtotalIsBilled | frontend/src/pages/Sales/Sales.js:99-100 | In a priced cart the subtotal equals the sum of unit price × quantity, which is what the server recomputes. |
| Cart.AddNewProductSubtotal | frontend/src/pages/Sales/Sales.js:69-76 | Adding a new product raises the subtotal by its price. |
| Cart.CartTotals | frontend/src/pages/Sales/Sales.js:99-106 | The subtotal is the sum of line totals, and the total is subtotal + tax. |
| Cart.SaleRequestOf | frontend/src/pages/Sales/Sales.js:102-125 | The sale posted carries the cart lines, the cart's subtotal, the tax computed on that subtotal and their sum as the total, paid in cash and already `paid`. |
| Cart.Terminal.Add | frontend/src/pages/Sales/Sales.js:56-80 | The cart becomes the result of the corrected add `AddToCart` (see Findings), and stays consistent. |
| Cart.Terminal.Update | frontend/src/pages/Sales/Sales.js:82-93 | The cart becomes the result of `UpdateCartItem` and stays consistent. |
| Cart.Terminal.Remove | frontend/src/pages/Sales/Sales.js:95-97 | The cart becomes the result of `RemoveFromCart` and stays consistent. |
| Cart.Terminal.ProcessSale | frontend/src/pages/Sales/Sales.js:108-140 | An empty cart is refused and left alone. A non-empty cart is posted; it is emptied when the post succeeds and kept when it fails. |

## Left out

- Numbers are integers in minor units. Decimal prices, the 7.5% floating-point tax in `Sales.js` and the float casts of the dashboard sums are not modelled. Where the code computes with a request value, the model reads it through `Core.Numeric`: an integer, a boolean, null, or a string of plain digits. These values are read that way: the sale items' `product_id`, `quantity` and `unit_price`; the sale's `tax_amount` and `discount_amount`; the order items' three fields; the payment `amount`, times 100 at checkout and divided by 100 on verification; and a product's `price`, `initial_quantity` and `low_stock_threshold`. Any other value there is a malformed number and answers 500. The inventory update casts with `(int)`, as the code does. Values the code only stores are kept as given: an order's `customer_id` and `total_amount`, a sale's `customer_id` and `notes`, a customer's `loyalty_points`, a product's `tax_rate`, `cost_price` and `category_id`, and a payment's `sale_id` and `amount`.
- Sales.PriceItem: the guard's `<= 0` treats text that `Core.Numeric` cannot read by its first character: empty or starting below `0` is not positive, anything else is. PHP 8 reads some of that text as a number first. So `"+5"`, `" 5"` and `".5"` are refused here as invalid, where PHP accepts them as positive. `"0.0"`, `"0e1"` and `"0 "` pass the guard here and then count as a malformed number (500), where PHP refuses them as invalid. Quantities and unit prices that PHP multiplies but `Core.Numeric` cannot read (`"2.5"`, `"1e3"`, `"5 "`) are also a malformed number. A list, or other text such as `"abc"`, passes the guard in both. Here it is then a malformed number, where PHP compares it with the stock first and may report insufficient stock. A product id that is not a number is "not found", where the database would refuse the query with a different 400 message.
- Sales.PlanSale: a signed, decimal or leading-numeric string tax or discount is a malformed number here, where PHP adds it.
- Orders.ReserveItem: a signed, decimal or leading-numeric string in one of the three item fields is a malformed number here, where PHP computes with it.
- Payments.VerifyPayment: the amount is the exact quotient kobo / 100 as a real number, where PHP returns an integer or a float. A decimal-string amount is a malformed number here.
- The order handler reads and lowers `inventory.stock_quantity` and logs order movements with `quantity`, `reference_type`, `reference_id` and `created_by`. The inventory, product and sales handlers use `inventory.quantity`, and the inventory update logs `quantity_change` and `user_id`. Against one schema, one of the two sets of statements would fail at the database. The model keeps one stock figure per product and one movement log for both; an `out` movement counts as a decrease of its quantity.
- Cart.CartTotals: the tax is a parameter function rather than 7.5% of the subtotal in floating point.
- Item lists must be JSON arrays. A JSON object used as an item list, which PHP iterates by value, is treated like any other non-list value: as no items for a sale and as an error for an order.
- Database id sequences are not rolled back with a transaction. This is how the database behaves, and the model does the same.
- The payment `failed` status is never written, because the code never writes it.
- Time (`time()`, `NOW()`, `date()`), `rand`, the payment gateway calls, JWT decoding and HMAC-SHA512 with `hash_equals` are parameters of the handlers. Their internals are not modelled.
- The listing queries are reduced to the sets of rows they select, and `Inventory.ListedBefore` gives their order. These are not modelled: the SQL text, ILIKE search, joins used only for display, paging of result sets, the counts in pagination answers, `show`, `index`, the dashboard's sums over dates, and the recent-sales query.
- Inventory.ListedBefore: names compare character by character, without the database's collation.
- `InventoryController::lowStock`, `OrderController::getPaymentHistory` and `getOrders`' search are left out: they are read-only queries with no logic beyond what `Inventory.Listed` and `Orders.VisibleOrders` state.
- `App\BaseController`, which `OrderController` and `PaymentController` extend, is not part of this model. Its `validateRequired`, `requireAuth` and answers are assumed to apply the same tests as `backend/src/BaseController.php`, reporting the verdict under `valid`.
- The database schema is not part of this model. SKU and barcode are taken to be unique keys over all product rows, active or not, so a clash is a duplicate-key error. There are no foreign keys. A payment's sale id and amount are stored as the client sent them. Order lines are listed without the join to products.
- Orders.GetOrder: returns the order's lines without the product columns the join adds.
- `sendReceiptEmail` in the webhook only writes a log line and is left out. So are the e-mail service, the contact form, authentication endpoints, routers, migrations and all other React pages.
- Concurrency and row locking are left out: the code takes no locks, and each request is one sequential call on `Storage.Db`.
- `(int)` on strings reads an optional sign and leading digits. Exponents, surrounding whitespace and hexadecimal forms are not modelled.

## Findings

| source | as written | input that shows it | evidently intended | confidence | as-written member | corrected member |
|---|---|---|---|---|---|---|
| frontend/src/pages/Sales/Sales.js:64-68 | Adding a product that is already in the cart raises the line's quantity but keeps its old `line_total`, so the displayed subtotal and the `tax_amount` and `total_amount` posted with the sale undercount. The server recomputes the line totals, but it stores the client's tax. | A cart with one Mug at 500 (line total 500); add the Mug again, with stock 10. The line becomes quantity 2 with line total 500, and the subtotal stays 500 instead of 1000. | Re-price the line as `unit_price × quantity`, as `updateCartItem` does at line 90. | high; not executed | Cart.AddToCartAsWritten, Cart.AddToCartAsWrittenStaleTotal | Cart.AddToCart, Cart.AddToCartKeepsConsistent |

=== FILE: cart.dfy ===
/** The point-of-sale cart of the sales page: adding a product, changing or
    removing a line, the totals, and submitting the cart as a sale. The cart
    transformations are pure; the `Terminal` object holds the cart state the
    page replaces after each action. Money is in integer minor units. */
module Cart {

  /** A product as the page lists it, with its stock. */
  datatype Listing = Listing(id: int, name: string, price: int, stock: int)

  datatype CartLine = CartLine(productId: int, name: string, unitPrice: int, quantity: int, lineTotal: int)

  /** The outcome of adding a product: the new cart, or the old one when the
      line already holds all the stock. */
  datatype Added = Added(cart: seq<CartLine>, refused: bool)

  /** At most one line per product. */
  predicate Distinct(cart: seq<CartLine>) {
    forall i, j :: 0 <= i < j < |cart| ==> cart[i].productId != cart[j].productId
  }

  /** Every line holds at least one unit and is priced at unit price times quantity. */
  predicate Priced(cart: seq<CartLine>) {
    forall i :: 0 <= i < |cart| ==> cart[i].quantity >= 1 && cart[i].lineTotal == cart[i].unitPrice * cart[i].quantity
  }

  predicate Consistent(cart: seq<CartLine>) {
    Distinct(cart) && Priced(cart)
  }

  /** `cart.find(item => item.product_id === id)`, as a position. */
  function IndexOf(cart: seq<CartLine>, id: int): (k: int)
    ensures -1 <= k < |cart|
    ensures k >= 0 ==> cart[k].productId == id && forall j :: 0 <= j < k ==> cart[j].productId != id
    ensures k == -1 <==> forall j :: 0 <= j < |cart| ==> cart[j].productId != id
    decreases |cart|
  {
    if cart == [] then -1
    else if cart[0].productId == id then 0
    else var k := IndexOf(cart[1..], id); if k == -1 then -1 else k + 1
  }

  /** The line a new product gets: one unit at the listed price. */
  function NewLine(p: Listing): CartLine {
    CartLine(p.id, p.name, p.price, 1, p.price)
  }

  /** Adds one unit to every line of the product, re-pricing it. */
  function Bump(cart: seq<CartLine>, id: int): (r: seq<CartLine>)
    ensures |r| == |cart|
    ensures forall j :: 0 <= j < |cart| && cart[j].productId != id ==> r[j] == cart[j]
    ensures forall j :: 0 <= j < |cart| && cart[j].productId == id ==>
      r[j] == cart[j].(quantity := cart[j].quantity + 1, lineTotal := cart[j].unitPrice * (cart[j].quantity + 1))
  {
    seq(|cart|, j requires 0 <= j < |cart| =>
      if cart[j].productId == id
      then cart[j].(quantity := cart[j].quantity + 1, lineTotal := cart[j].unitPrice * (cart[j].quantity + 1))
      else cart[j])
  }

  /** `addToCart`, with the line total kept equal to unit price times quantity. */
  function AddToCart(cart: seq<CartLine>, p: Listing): (r: Added)
    ensures IndexOf(cart, p.id) == -1 ==> r == Added(cart + [NewLine(p)], false)
    ensures IndexOf(cart, p.id) >= 0 && cart[IndexOf(cart, p.id)].quantity >= p.stock ==> r == Added(cart, true)
    ensures r.refused <==> IndexOf(cart, p.id) >= 0 && cart[IndexOf(cart, p.id)].quantity >= p.stock
  {
    var k := IndexOf(cart, p.id);
    if k >= 0 then
      if cart[k].quantity >= p.stock then Added(cart, true) else Added(Bump(cart, p.id), false)
    else Added(cart + [NewLine(p)], false)
  }

  /** Adding a product already in a consistent cart raises that line by one
      unit, re-priced, and leaves every other line as it was. */
  lemma AddExistingRaisesOneLine(cart: seq<CartLine>, p: Listing)
    requires Distinct(cart)
    requires IndexOf(cart, p.id) >= 0 && cart[IndexOf(cart, p.id)].quantity < p.stock
    ensures var k := IndexOf(cart, p.id); var r := AddToCart(cart, p).cart;
      && |r| == |cart| && !AddToCart(cart, p).refused
      && r[k] == cart[k].(quantity := cart[k].quantity + 1, lineTotal := cart[k].unitPrice * (cart[k].quantity + 1))
      && forall j :: 0 <= j < |cart| && j != k ==> r[j] == cart[j]
  {
    var k := IndexOf(cart, p.id);
    forall j | 0 <= j < |cart| && j != k ensures cart[j].productId != p.id {
      if j < k {
      } else {
        assert cart[k].productId != cart[j].productId;
      }
    }
  }

  /** Adding keeps the cart consistent: one line per product, each priced. */
  lemma AddToCartKeepsConsistent(cart: seq<CartLine>, p: Listing)
    requires Consistent(cart)
    ensures Consistent(AddToCart(cart, p).cart)
  {
    var k := IndexOf(cart, p.id);
    if k == -1 {
      var r := cart + [NewLine(p)];
      assert forall j :: 0 <= j < |cart| ==> r[j] == cart[j];
    } else if cart[k].quantity < p.stock {
      var r := Bump(cart, p.id);
      forall i, j | 0 <= i < j < |r| ensures r[i].productId != r[j].productId {
        assert r[i].productId == cart[i].productId && r[j].productId == cart[j].productId;
      }
    }
  }

  /** `addToCart` as written: raising an existing line's quantity leaves its
      line total at the old amount. */
  function AddToCartAsWritten(cart: seq<CartLine>, p: Listing): (r: Added)
    ensures r.refused == AddToCart(cart, p).refused
    ensures IndexOf(cart, p.id) == -1 ==> r == AddToCart(cart, p)
  {
    var k := IndexOf(cart, p.id);
    if k >= 0 then
      if cart[k].quantity >= p.stock then Added(cart, true)
      else Added(seq(|cart|, j requires 0 <= j < |cart| =>
                   if cart[j].productId == p.id then cart[j].(quantity := cart[j].quantity + 1) else cart[j]), false)
    else Added(cart + [NewLine(p)], false)
  }

  /** The stale line total: adding a second unit of a product leaves its line,
      and so the subtotal, at the price of one. */
  lemma AddToCartAsWrittenStaleTotal()
    ensures var cart := [CartLine(1, "Mug", 500, 1, 500)];
      var p := Listing(1, "Mug", 500, 10);
      && Consistent(cart)
      && AddToCartAsWritten(cart, p).cart == [CartLine(1, "Mug", 500, 2, 500)]
      && !Priced(AddToCartAsWritten(cart, p).cart)
      && Subtotal(AddToCartAsWritten(cart, p).cart) == 500
      && Subtotal(AddToCart(cart, p).cart) == 1000
  {
    var cart := [CartLine(1, "Mug", 500, 1, 500)];
    var p := Listing(1, "Mug", 500, 10);
    assert IndexOf(cart, 1) == 0;
    var stale := AddToCartAsWritten(cart, p).cart;
    var fixed := AddToCart(cart, p).cart;
    assert stale == [CartLine(1, "Mug", 500, 2, 500)];
    assert fixed == [CartLine(1, "Mug", 500, 2, 1000)];
    assert stale[..0] == [] && fixed[..0] == [];
    assert Subtotal(stale) == Subtotal(stale[..0]) + 500;
    assert Subtotal(fixed) == Subtotal(fixed[..0]) + 1000;
  }

  /** `updateCartItem`: a quantity of zero or less removes the line, any other
      sets it and re-prices the line. */
  function UpdateCartItem(cart: seq<CartLine>, id: int, quantity: int): (r: seq<CartLine>)
    ensures quantity <= 0 ==> r == RemoveFromCart(cart, id)
    ensures quantity > 0 ==> |r| == |cart|
    ensures quantity > 0 ==> forall j :: 0 <= j < |cart| ==> r[j] == SetQuantity(cart[j], id, quantity)
  {
    if quantity <= 0 then RemoveFromCart(cart, id)
    else seq(|cart|, j requires 0 <= j < |cart| => SetQuantity(cart[j], id, quantity))
  }

  /** A line of the product takes the new quantity and is re-priced; other lines stay. */
  function SetQuantity(line: CartLine, id: int, quantity: int): CartLine {
    if line.productId == id then line.(quantity := quantity, lineTotal := line.unitPrice * quantity) else line
  }

  /** `removeFromCart`: keeps, in order, the lines of the other products
      (`cart.filter(item => item.product_id !== productId)`). */
  function RemoveFromCart(cart: seq<CartLine>, id: int): (r: seq<CartLine>)
    ensures forall line :: line in r <==> line in cart && line.productId != id
    ensures |cart| == 1 ==> r == if cart[0].productId == id then [] else cart
    ensures |r| <= |cart|
    decreases |cart|
  {
    if cart == [] then []
    else if cart[|cart| - 1].productId == id then RemoveFromCart(cart[..|cart| - 1], id)
    else RemoveFromCart(cart[..|cart| - 1], id) + [cart[|cart| - 1]]
  }

  /** Removing keeps the lines of the other products in their order and drops
      the product's line from the subtotal. */
  lemma {:induction false} RemoveFromCartSubtotal(cart: seq<CartLine>, id: int)
    ensures Subtotal(RemoveFromCart(cart, id)) == Subtotal(cart) - LinesTotal(cart, id)
    decreases |cart|
  {
    if cart != [] {
      var last := cart[|cart| - 1];
      RemoveFromCartSubtotal(cart[..|cart| - 1], id);
      if last.productId != id {
        var rest := RemoveFromCart(cart[..|cart| - 1], id);
        assert (rest + [last])[..|rest|] == rest;
      }
    }
  }

  /** Removing works piece by piece: what is removed from a cart split in two
      is what is removed from each part, in the same order. With the
      single-line case of `RemoveFromCart`, this pins down the order of the
      lines that stay. */
  lemma {:induction false} RemoveFromCartConcat(a: seq<CartLine>, b: seq<CartLine>, id: int)
    ensures RemoveFromCart(a + b, id) == RemoveFromCart(a, id) + RemoveFromCart(b, id)
    decreases |b|
  {
    if b == [] {
      assert a + b == a;
    } else {
      var init := b[..|b| - 1];
      assert (a + b)[..|a + b| - 1] == a + init;
      RemoveFromCartConcat(a, init, id);
    }
  }

  /** Removing drops exactly as many lines as the product has. */
  lemma RemoveFromCartLength(cart: seq<CartLine>, id: int)
    ensures |RemoveFromCart(cart, id)| == |cart| - |LinesOf(cart, id)|
  {
    RemoveFromCartSubsequence(cart, id);
    assert |multiset(RemoveFromCart(cart, id)) + multiset(LinesOf(cart, id))| == |multiset(cart)|;
  }

  /** Removing splits the cart in two: the lines that stay and the lines of
      the product, each line kept as often as it was there. */
  lemma {:induction false} RemoveFromCartSubsequence(cart: seq<CartLine>, id: int)
    ensures multiset(RemoveFromCart(cart, id)) + multiset(LinesOf(cart, id)) == multiset(cart)
    decreases |cart|
  {
    if cart != [] {
      var init := cart[..|cart| - 1];
      var last := cart[|cart| - 1];
      RemoveFromCartSubsequence(init, id);
      assert cart == init + [last];
      assert multiset(cart) == multiset(init) + multiset{last};
      var kept, dropped := RemoveFromCart(init, id), LinesOf(init, id);
      if last.productId == id {
        assert LinesOf(cart, id) == dropped + [last];
        assert RemoveFromCart(cart, id) == kept;
        assert multiset(dropped + [last]) == multiset(dropped) + multiset{last};
      } else {
        assert LinesOf(cart, id) == dropped;
        assert RemoveFromCart(cart, id) == kept + [last];
        assert multiset(kept + [last]) == multiset(kept) + multiset{last};
      }
    }
  }

  /** The lines of one product. */
  function LinesOf(cart: seq<CartLine>, id: int): seq<CartLine>
    decreases |cart|
  {
    if cart == [] then []
    else LinesOf(cart[..|cart| - 1], id) + (if cart[|cart| - 1].productId == id then [cart[|cart| - 1]] else [])
  }

  /** The sum of the line totals of one product. */
  function LinesTotal(cart: seq<CartLine>, id: int): int
    decreases |cart|
  {
    if cart == [] then 0
    else LinesTotal(cart[..|cart| - 1], id) + (if cart[|cart| - 1].productId == id then cart[|cart| - 1].lineTotal else 0)
  }

  /** `cart.reduce((sum, item) => sum + item.line_total, 0)`. */
  function Subtotal(cart: seq<CartLine>): int
    decreases |cart|
  {
    if cart == [] then 0 else Subtotal(cart[..|cart| - 1]) + cart[|cart| - 1].lineTotal
  }

  /** What the lines are worth: unit price times quantity, summed. */
  function Billed(cart: seq<CartLine>): int
    decreases |cart|
  {
    if cart == [] then 0 else Billed(cart[..|cart| - 1]) + cart[|cart| - 1].unitPrice * cart[|cart| - 1].quantity
  }

  /** In a priced cart the subtotal is what the lines are worth, which is
      what the server recomputes from the same items. */
  lemma {:induction false} SubtotalIsBilled(cart: seq<CartLine>)
    requires Priced(cart)
    ensures Subtotal(cart) == Billed(cart)
    decreases |cart|
  {
    if cart != [] {
      var init := cart[..|cart| - 1];
      assert Priced(init) by {
        forall i | 0 <= i < |init| ensures init[i] == cart[i] { }
      }
      SubtotalIsBilled(init);
    }
  }

  /** Adding a new product raises the subtotal by its price. */
  lemma AddNewProductSubtotal(cart: seq<CartLine>, p: Listing)
    requires IndexOf(cart, p.id) == -1
    ensures Subtotal(AddToCart(cart, p).cart) == Subtotal(cart) + p.price
  {
    assert (cart + [NewLine(p)])[..|cart|] == cart;
  }

  /** The cart totals: the subtotal, the tax `taxOf` computes on it (7.5% on
      the page) and their sum. */
  datatype Totals = Totals(subtotal: int, taxAmount: int, total: int)

  function CartTotals(cart: seq<CartLine>, taxOf: int -> int): (t: Totals)
    ensures t.subtotal == Subtotal(cart) && t.taxAmount == taxOf(t.subtotal)
    ensures t.total == t.subtotal + t.taxAmount
  {
    var subtotal := Subtotal(cart);
    Totals(subtotal, taxOf(subtotal), subtotal + taxOf(subtotal))
  }

  /** The body `processSale` posts: the cart lines, the totals, and a cash
      sale already paid. */
  datatype SaleRequest = SaleRequest(items: seq<CartLine>, subtotal: int, taxAmount: int, totalAmount: int,
                                     paymentMethod: string, paymentStatus: string)

  function SaleRequestOf(cart: seq<CartLine>, taxOf: int -> int): (q: SaleRequest)
    ensures q.items == cart && q.paymentMethod == "cash" && q.paymentStatus == "paid"
    ensures q.totalAmount == q.subtotal + q.taxAmount && q.subtotal == Subtotal(cart)
    ensures q.taxAmount == taxOf(Subtotal(cart))
  {
    var t := CartTotals(cart, taxOf);
    SaleRequest(cart, t.subtotal, t.taxAmount, t.total, "cash", "paid")
  }

  datatype ProcessOutcome = EmptyCart | Completed | Failed

  /** The page state the cart actions replace. */
  class Terminal {
    var cart: seq<CartLine>

    predicate Valid()
      reads this
    {
      Consistent(cart)
    }

    constructor ()
      ensures Valid() && cart == []
    {
      cart := [];
    }

    method Add(p: Listing) returns (refused: bool)
      requires Valid()
      modifies this
      ensures Valid()
      ensures refused == AddToCart(old(cart), p).refused
      ensures cart == AddToCart(old(cart), p).cart
    {
      AddToCartKeepsConsistent(cart, p);
      var r := AddToCart(cart, p);
      cart := r.cart;
      refused := r.refused;
    }

    method Update(id: int, quantity: int)
      requires Valid()
      modifies this
      ensures Valid()
      ensures cart == UpdateCartItem(old(cart), id, quantity)
    {
      if quantity <= 0 {
        Remove(id);
        return;
      }
      var r := UpdateCartItem(cart, id, quantity);
      assert Distinct(r) by {
        forall i, j | 0 <= i < j < |r| ensures r[i].productId != r[j].productId {
          assert r[i].productId == cart[i].productId && r[j].productId == cart[j].productId;
        }
      }
      cart := r;
    }

    method Remove(id: int)
      requires Valid()
      modifies this
      ensures Valid()
      ensures cart == RemoveFromCart(old(cart), id)
    {
      RemoveKeepsConsistent(cart, id);
      cart := RemoveFromCart(cart, id);
    }

    /** `processSale`: an empty cart is refused; otherwise the cart is posted,
        and emptied when the sale is accepted. `post` answers whether the
        request succeeded. */
    method ProcessSale(taxOf: int -> int, post: SaleRequest -> bool) returns (outcome: ProcessOutcome)
      requires Valid()
      modifies this
      ensures Valid()
      ensures old(cart) == [] ==> outcome == EmptyCart && cart == old(cart)
      ensures old(cart) != [] && post(SaleRequestOf(old(cart), taxOf)) ==> outcome == Completed && cart == []
      ensures old(cart) != [] && !post(SaleRequestOf(old(cart), taxOf)) ==> outcome == Failed && cart == old(cart)
    {
      if |cart| == 0 {
        return EmptyCart;
      }
      var request := SaleRequestOf(cart, taxOf);
      if post(request) {
        cart := [];
        return Completed;
      }
      return Failed;
    }
  }

  /** Removing lines keeps the cart consistent. */
  lemma {:induction false} RemoveKeepsConsistent(cart: seq<CartLine>, id: int)
    requires Consistent(cart)
    ensures Consistent(RemoveFromCart(cart, id))
    decreases |cart|
  {
    if cart != [] {
      var init := cart[..|cart| - 1];
      var last := cart[|cart| - 1];
      assert Consistent(init) by {
        forall i | 0 <= i < |init| ensures init[i] == cart[i] { }
      }
      RemoveKeepsConsistent(init, id);
      if last.productId != id {
        var rest := RemoveFromCart(init, id);
        var r := rest + [last];
        forall i | 0 <= i < |rest| ensures rest[i].productId != last.productId {
          assert rest[i] in init;
          var j :| 0 <= j < |init| && init[j] == rest[i];
          assert cart[j].productId != cart[|cart| - 1].productId;
        }
        forall i, j | 0 <= i < j < |r| ensures r[i].productId != r[j].productId {
          if j < |rest| {
            assert r[i] == rest[i] && r[j] == rest[j];
          } else {
            assert r[i] == rest[i];
          }
        }
      }
    }
  }
}

=== FILE: core.dfy ===
/** Request values as PHP sees them, decimal text, and the request guards of
    BaseController: validateRequired, getPagination, getCurrentUser, requireAuth. */
module Core {

  datatype Option<T> = None | Some(value: T)

  /** A decoded JSON value, as `json_decode($input, true)` yields it. Numbers are
      integers (money in minor units); a JSON object is a map from key to value. */
  datatype Value =
    | Null
    | Bool(b: bool)
    | Int(i: int)
    | Str(s: string)
    | Arr(elems: seq<Value>)
    | Obj(fields: map<string, Value>)

  /** A decoded request body. */
  type Request = map<string, Value>

  /** Every error a controller reports; each constructor stands for one message. */
  datatype Error =
    | Unauthorized                 // 'Unauthorized'
    | InsufficientPermissions      // 'Insufficient permissions'
    | MissingRequiredFields        // 'Missing required fields'
    | MalformedNumber              // a non-integer where PHP or the database computes with an integer
    | InvalidItemData              // 'Invalid item data'
    | ProductNotFound(id: Value)   // 'Product not found: …'
    | InsufficientStock(of: Value) // 'Insufficient stock for product …'
    | OrderNeedsItems              // 'Order must have at least one item'
    | InvalidStatus                // 'Invalid status'
    | OrderNotFound                // 'Order not found'
    | AccessDenied                 // 'Access denied'
    | NoFieldsToUpdate             // 'No fields to update'
    | NotInInventory               // 'Product not found in inventory'
    | PaymentInitializationFailed  // 'Payment initialization failed'
    | ReferenceRequired            // 'Payment reference is required'
    | VerificationFailed           // 'Payment verification failed'
    | InvalidSignature             // 'Invalid signature'
    | SubqueryReturnedManyRows     // the database error of a scalar subquery matching several rows
    | CustomerEmailExists          // 'Customer with this email already exists'
    | CustomerNotFound             // 'Customer not found'
    | DuplicateSkuOrBarcode        // 'SKU or barcode already exists'
    | ProductCreateFailed          // 'Failed to create product'
    | ProductUpdateFailed          // 'Failed to update product'
    | ProductMissing               // 'Product not found'

  /** An HTTP answer: a status code with a payload, or with an error. */
  datatype Response<T> = Success(code: int, data: T) | Failure(code: int, error: Error)

  /** The outcome of a step that may throw. */
  datatype Result<T> = Ok(value: T) | Err(error: Error)

  // ---------------------------------------------------------------------------
  // isset / empty / ??

  /** `isset($data[$f])`: the key is present and not null. */
  predicate IsSet(data: Request, f: string) {
    f in data && data[f] != Null
  }

  /** `empty($v)` on a value: null, false, 0, "", "0" and the empty array. */
  predicate IsEmpty(v: Value) {
    match v
    case Null => true
    case Bool(b) => !b
    case Int(i) => i == 0
    case Str(s) => s == "" || s == "0"
    case Arr(e) => e == []
    case Obj(m) => m == map[]
  }

  /** `isset($data[$f]) && !empty($data[$f])`. */
  predicate Filled(data: Request, f: string) {
    IsSet(data, f) && !IsEmpty(data[f])
  }

  predicate AllFilled(data: Request, required: seq<string>) {
    forall k :: 0 <= k < |required| ==> Filled(data, required[k])
  }

  /** `$data[$f] ?? $default`. */
  function Coalesce(data: Request, f: string, default: Value): (r: Value)
    ensures IsSet(data, f) ==> r == data[f]
    ensures !IsSet(data, f) ==> r == default
    ensures r == Null ==> default == Null
  {
    if IsSet(data, f) then data[f] else default
  }

  /** `$data[$f]`: null when the key is absent. */
  function Get(data: Request, f: string): Value {
    if f in data then data[f] else Null
  }

  /** PHP's string conversion of a decoded value, as in concatenation or a bound
      query parameter. */
  function ToText(v: Value): string {
    match v
    case Null => ""
    case Bool(b) => if b then "1" else ""
    case Int(i) => IntToString(i)
    case Str(s) => s
    case Arr(_) => "Array"
    case Obj(_) => "Array"
  }

  /** The integer PHP arithmetic uses for a decoded value; None where it would
      compute with a fraction or throw. */
  function Numeric(v: Value): Option<int> {
    match v
    case Null => Some(0)
    case Bool(b) => Some(if b then 1 else 0)
    case Int(i) => Some(i)
    case Str(s) => if s != [] && AllDigits(s) then Some(StrToInt(s)) else None
    case Arr(_) => None
    case Obj(_) => None
  }

  /** `$item[$f]` for one decoded item: null unless the item is an object with that key. */
  function Field(item: Value, f: string): Value {
    if item.Obj? && f in item.fields then item.fields[f] else Null
  }

  /** BaseController::validateRequired: false as soon as one required field is
      unset or empty, true when none is. */
  method ValidateRequired(data: Request, required: seq<string>) returns (valid: bool)
    ensures valid <==> AllFilled(data, required)
    ensures !valid ==> exists k :: 0 <= k < |required| && !Filled(data, required[k])
  {
    for i := 0 to |required|
      invariant forall k :: 0 <= k < i ==> Filled(data, required[k])
    {
      if !Filled(data, required[i]) {
        return false;
      }
    }
    return true;
  }

  /** The fields of `allowed` that the request sets, with their values. */
  function Picked(data: Request, allowed: seq<string>): (changes: map<string, Value>)
    ensures forall f :: f in changes <==> f in allowed && IsSet(data, f)
    ensures forall f :: f in changes ==> f in data && changes[f] == data[f]
  {
    map f | f in data && f in allowed && data[f] != Null :: data[f]
  }

  /** The loop that builds `$updateFields` and `$params` in the update handlers. */
  method PickFields(data: Request, allowed: seq<string>) returns (changes: map<string, Value>)
    ensures changes == Picked(data, allowed)
  {
    changes := map[];
    for i := 0 to |allowed|
      invariant forall f :: f in changes <==> f in allowed[..i] && IsSet(data, f)
      invariant forall f :: f in changes ==> f in data && changes[f] == data[f]
    {
      if IsSet(data, allowed[i]) {
        changes := changes[allowed[i] := data[allowed[i]]];
      }
    }
    assert allowed[..|allowed|] == allowed;
  }

  /** `$attrs[$f]` of a stored row: null when the column is null. */
  function Attr(attrs: map<string, Value>, f: string): Value {
    if f in attrs then attrs[f] else Null
  }

  /** An update that writes the picked fields over a row changes exactly the
      allowed fields the request sets, to the request's values. */
  lemma PickedUpdate(attrs: map<string, Value>, data: Request, allowed: seq<string>, f: string)
    ensures f !in allowed || !IsSet(data, f) ==> Attr(attrs + Picked(data, allowed), f) == Attr(attrs, f)
    ensures f in allowed && IsSet(data, f) ==> Attr(attrs + Picked(data, allowed), f) == data[f]
  {
  }

  // ---------------------------------------------------------------------------
  // Decimal text: PHP's string conversion of integers, (int) casts and str_pad.

  predicate IsDigit(c: char) {
    '0' <= c <= '9'
  }

  predicate AllDigits(s: string) {
    forall k :: 0 <= k < |s| ==> IsDigit(s[k])
  }

  function DigitChar(d: int): (c: char)
    requires 0 <= d < 10
    ensures IsDigit(c) && c as int - '0' as int == d
  {
    ('0' as int + d) as char
  }

  /** The decimal digits of `n`, without leading zeros. */
  function NatToString(n: nat): (s: string)
    ensures |s| >= 1 && AllDigits(s)
    ensures n < 10 <==> |s| == 1
    decreases n
  {
    if n < 10 then [DigitChar(n)] else NatToString(n / 10) + [DigitChar(n % 10)]
  }

  /** PHP's string conversion of an integer. */
  function IntToString(i: int): string {
    if i < 0 then "-" + NatToString(-i) else NatToString(i)
  }

  /** The value of the run of digits at the start of `s`, appended to `acc`. */
  function ParseDigits(s: string, acc: int): (r: int)
    ensures acc >= 0 ==> r >= acc
    decreases |s|
  {
    if s != [] && IsDigit(s[0]) then ParseDigits(s[1..], acc * 10 + (s[0] as int - '0' as int))
    else acc
  }

  /** `(int)$s` for a string: an optional sign, then the leading run of digits (0 when none). */
  function StrToInt(s: string): (r: int)
    ensures s == [] || (s[0] != '-' && s[0] != '+' && !IsDigit(s[0])) ==> r == 0
    ensures s != [] && s[0] == '-' ==> r <= 0
    ensures s == [] || s[0] != '-' ==> r >= 0
  {
    if s != [] && s[0] == '-' then -ParseDigits(s[1..], 0)
    else if s != [] && s[0] == '+' then ParseDigits(s[1..], 0)
    else ParseDigits(s, 0)
  }

  /** `(int)$v` for a decoded value. */
  function ToInt(v: Value): (r: int)
    ensures IsEmpty(v) ==> r == 0
    ensures Numeric(v).Some? ==> r == Numeric(v).value
  {
    match v
    case Null => 0
    case Bool(b) => if b then 1 else 0
    case Int(i) => i
    case Str(s) =>
      assert s == "0" ==> StrToInt(s) == ParseDigits(s[1..], 0) && s[1..] == [];
      StrToInt(s)
    case Arr(e) => if e == [] then 0 else 1
    case Obj(m) => if m == map[] then 0 else 1
  }

  function Repeat(c: char, k: nat): (s: string)
    ensures |s| == k && forall j :: 0 <= j < k ==> s[j] == c
  {
    if k == 0 then [] else [c] + Repeat(c, k - 1)
  }

  /** `str_pad($s, $width, '0', STR_PAD_LEFT)`. */
  function PadLeftZeros(s: string, width: nat): string {
    if |s| >= width then s else Repeat('0', width - |s|) + s
  }

  lemma {:induction false} ParseDigitsSnoc(x: string, d: char, acc: int)
    requires AllDigits(x) && IsDigit(d)
    ensures ParseDigits(x + [d], acc) == ParseDigits(x, acc) * 10 + (d as int - '0' as int)
    decreases |x|
  {
    if x == [] {
      assert x + [d] == [d];
    } else {
      assert (x + [d])[1..] == x[1..] + [d];
      ParseDigitsSnoc(x[1..], d, acc * 10 + (x[0] as int - '0' as int));
    }
  }

  lemma {:induction false} ParseDigitsStops(x: string, rest: string, acc: int)
    requires AllDigits(x)
    requires rest == [] || !IsDigit(rest[0])
    ensures ParseDigits(x + rest, acc) == ParseDigits(x, acc)
    decreases |x|
  {
    if x == [] {
      assert x + rest == rest;
    } else {
      assert (x + rest)[1..] == x[1..] + rest;
      ParseDigitsStops(x[1..], rest, acc * 10 + (x[0] as int - '0' as int));
    }
  }

  lemma {:induction false} ParseLeadingZeros(k: nat, x: string)
    ensures ParseDigits(Repeat('0', k) + x, 0) == ParseDigits(x, 0)
    decreases k
  {
    if k > 0 {
      var s := Repeat('0', k) + x;
      assert s[0] == '0' && s[1..] == Repeat('0', k - 1) + x;
      assert ParseDigits(s, 0) == ParseDigits(s[1..], 0);
      ParseLeadingZeros(k - 1, x);
    } else {
      assert Repeat('0', k) + x == x;
    }
  }

  /** Reading back the digits of a natural number gives the number. */
  lemma {:induction false} NatToStringRoundTrip(n: nat)
    ensures ParseDigits(NatToString(n), 0) == n
    decreases n
  {
    if n < 10 {
    } else {
      ParseDigitsSnoc(NatToString(n / 10), DigitChar(n % 10), 0);
      NatToStringRoundTrip(n / 10);
    }
  }

  /** `(int)` undoes PHP's string conversion of every integer. */
  lemma IntToStringRoundTrip(i: int)
    ensures StrToInt(IntToString(i)) == i
  {
    if i < 0 {
      assert ("-" + NatToString(-i))[1..] == NatToString(-i);
      NatToStringRoundTrip(-i);
    } else {
      NatToStringRoundTrip(i);
    }
  }

  /** Zero padding keeps the value of the digits. */
  lemma PadLeftZerosRoundTrip(n: nat, width: nat)
    ensures ParseDigits(PadLeftZeros(NatToString(n), width), 0) == n
    ensures |PadLeftZeros(NatToString(n), width)| >= width
  {
    var s := NatToString(n);
    if |s| < width {
      ParseLeadingZeros(width - |s|, s);
    }
    NatToStringRoundTrip(n);
  }

  /** `str_pad(rand(1, 9999), 4, '0', STR_PAD_LEFT)` for a given draw. */
  function DrawText(draw: int): (s: string)
    requires 1 <= draw <= 9999
    ensures |s| == 4 && AllDigits(s)
  {
    NatToStringLength(draw);
    PadLeftZeros(NatToString(draw), 4)
  }

  /** A number below 10000 has at most four digits. */
  lemma {:induction false} NatToStringLength(n: nat)
    ensures n < 10000 ==> |NatToString(n)| <= 4
    decreases n
  {
    if n >= 10 {
      NatToStringLength(n / 10);
      if n < 10000 {
        assert n / 10 < 1000;
        NatToStringShort(n / 10);
      }
    }
  }

  /** A number below 1000 has at most three digits. */
  lemma {:induction false} NatToStringShort(n: nat)
    ensures n < 1000 ==> |NatToString(n)| <= 3
    decreases n
  {
    if n >= 10 && n < 1000 {
      assert n / 10 < 100;
      if n / 10 >= 10 {
        assert n / 100 < 10;
        assert NatToString(n / 10) == NatToString(n / 100) + [DigitChar((n / 10) % 10)];
      }
    }
  }

  /** Two documents numbered with the same prefix get the same number exactly
      when their draws agree. */
  lemma DrawTextInjective(prefix: string, draw1: int, draw2: int)
    requires 1 <= draw1 <= 9999 && 1 <= draw2 <= 9999
    ensures prefix + DrawText(draw1) == prefix + DrawText(draw2) <==> draw1 == draw2
  {
    var s1, s2 := DrawText(draw1), DrawText(draw2);
    if prefix + s1 == prefix + s2 {
      assert s1 == (prefix + s1)[|prefix|..];
      assert s2 == (prefix + s2)[|prefix|..];
      PadLeftZerosRoundTrip(draw1, 4);
      PadLeftZerosRoundTrip(draw2, 4);
    }
  }

  // ---------------------------------------------------------------------------
  // getPagination

  datatype Page = Page(page: int, limit: int, offset: int)

  lemma NonNegativeProduct(a: int, b: int)
    requires a >= 0 && b >= 0
    ensures a * b >= 0
  {
  }

  /** BaseController::getPagination: the `page` and `limit` query parameters cast
      with (int), the page kept at least 1, the limit kept within 1..100. */
  function GetPagination(pageParam: Option<string>, limitParam: Option<string>, defaultLimit: int): (p: Page)
    ensures p.page >= 1
    ensures 1 <= p.limit <= 100
    ensures p.offset == (p.page - 1) * p.limit && p.offset >= 0
    ensures pageParam.Some? && StrToInt(pageParam.value) >= 1 ==> p.page == StrToInt(pageParam.value)
    ensures pageParam.None? ==> p.page == 1
    ensures limitParam.None? && 1 <= defaultLimit <= 100 ==> p.limit == defaultLimit
    ensures limitParam.Some? && 1 <= StrToInt(limitParam.value) <= 100 ==> p.limit == StrToInt(limitParam.value)
    ensures limitParam.Some? && StrToInt(limitParam.value) > 100 ==> p.limit == 100
    ensures pageParam.Some? && StrToInt(pageParam.value) < 1 ==> p.page == 1
    ensures limitParam.Some? && StrToInt(limitParam.value) < 1 ==> p.limit == 1
    ensures limitParam.None? && defaultLimit < 1 ==> p.limit == 1
    ensures limitParam.None? && defaultLimit > 100 ==> p.limit == 100
  {
    var page := if pageParam.Some? then StrToInt(pageParam.value) else 1;
    var wanted := if limitParam.Some? then StrToInt(limitParam.value) else defaultLimit;
    var page' := if page < 1 then 1 else page;
    var limit := if wanted < 1 then 1 else if wanted > 100 then 100 else wanted;
    var offset := (page' - 1) * limit;
    assert offset >= 0 by { NonNegativeProduct(page' - 1, limit); }
    Page(page', limit, offset)
  }

  // ---------------------------------------------------------------------------
  // getCurrentUser and requireAuth

  datatype User = User(id: int, role: string, isActive: bool)

  /** The `Authorization` header, falling back to `authorization`. */
  function AuthHeader(headers: map<string, string>): Option<string> {
    if "Authorization" in headers then Some(headers["Authorization"])
    else if "authorization" in headers then Some(headers["authorization"])
    else None
  }

  /** The token of a bearer header: what follows the seven characters `Bearer `. */
  function BearerToken(header: Option<string>): (token: Option<string>)
    ensures token.Some? <==> header.Some? && |header.value| >= 7 && header.value[..7] == "Bearer "
    ensures token.Some? ==> header.value == "Bearer " + token.value
  {
    if header.Some? && |header.value| >= 7 && header.value[..7] == "Bearer " then
      Some(header.value[7..])
    else
      None
  }

  /** BaseController::getCurrentUser. Decoding the JWT is the parameter `decode`
      (None when the token does not verify); the user table is `users`. */
  function CurrentUser(headers: map<string, string>, decode: string -> Option<int>, users: map<int, User>): (u: Option<User>)
    ensures u.Some? <==>
      var token := BearerToken(AuthHeader(headers));
      token.Some? && decode(token.value).Some? &&
      decode(token.value).value in users && users[decode(token.value).value].isActive
    ensures u.Some? ==> u.value.isActive && u.value in users.Values
  {
    var token := BearerToken(AuthHeader(headers));
    if token.None? then None
    else
      var id := decode(token.value);
      if id.Some? && id.value in users && users[id.value].isActive then Some(users[id.value]) else None
  }

  datatype Access = Unauthenticated | Forbidden | Granted(user: User)

  /** BaseController::requireAuth: 401 without a user; 403 when roles are listed
      and the user's role is not among them; an empty list admits every user. */
  function RequireAuth(current: Option<User>, roles: seq<string>): (a: Access)
    ensures a == Unauthenticated <==> current.None?
    ensures a == Forbidden <==> current.Some? && roles != [] && current.value.role !in roles
    ensures a.Granted? ==> a.user == current.value && (roles == [] || a.user.role in roles)
  {
    if current.None? then Unauthenticated
    else if roles != [] && current.value.role !in roles then Forbidden
    else Granted(current.value)
  }

  /** The error answer for a refused request. */
  function Denied<T>(a: Access): Response<T>
    requires !a.Granted?
  {
    if a == Unauthenticated then Failure(401, Unauthorized) else Failure(403, InsufficientPermissions)
  }
}

=== FILE: customers.dfy ===
/** CustomerController: creating, updating and soft-deleting customers, with
    email uniqueness among active customers. */
module Customers {
  import opened Core
  import opened Storage

  const CustomerRoles := ["admin", "manager"]
  const CustomerRequired := ["first_name", "last_name"]
  const CustomerFields := ["first_name", "last_name", "email", "phone", "address", "loyalty_points"]

  /** Whether an active customer other than `except` has this email. */
  predicate EmailTaken(customers: map<int, Customer>, email: Value, except: Option<int>) {
    exists id :: id in customers && customers[id].active && except != Some(id) &&
      SameText(Attr(customers[id].attrs, "email"), email)
  }

  /** The row `store` inserts: the names, the optional contact fields (null
      when absent) and the loyalty points, 0 when absent. */
  function NewCustomer(data: Request): (c: Customer)
    ensures c.active
    ensures c.attrs.Keys == {"first_name", "last_name", "email", "phone", "address", "loyalty_points"}
    ensures c.attrs["loyalty_points"] == (if IsSet(data, "loyalty_points") then data["loyalty_points"] else Int(0))
    ensures c.attrs["email"] == Get(data, "email")
  {
    Customer(map["first_name" := Get(data, "first_name"), "last_name" := Get(data, "last_name"),
                 "email" := Coalesce(data, "email", Null), "phone" := Coalesce(data, "phone", Null),
                 "address" := Coalesce(data, "address", Null),
                 "loyalty_points" := Coalesce(data, "loyalty_points", Int(0))], true)
  }

  /** No active customer other than `except` has this email as a non-empty one. */
  predicate EmailFree(customers: map<int, Customer>, email: Value, except: Option<int>) {
    forall k :: k in customers && customers[k].active && except != Some(k) && !IsEmpty(Attr(customers[k].attrs, "email")) ==>
      !SameText(Attr(customers[k].attrs, "email"), email)
  }

  /** Writing a row keeps active emails unique when, if the row is active with
      a non-empty email, no other active customer has that email. */
  lemma UniqueEmailsSet(customers: map<int, Customer>, id: int, c: Customer)
    requires UniqueEmails(customers)
    requires c.active && !IsEmpty(Attr(c.attrs, "email")) ==> EmailFree(customers, Attr(c.attrs, "email"), Some(id))
    ensures UniqueEmails(customers[id := c])
  {
    var after := customers[id := c];
    forall i, j |
      (i in after && j in after && i != j && after[i].active && after[j].active &&
       !IsEmpty(Attr(after[i].attrs, "email")) && !IsEmpty(Attr(after[j].attrs, "email")))
      ensures !SameText(Attr(after[i].attrs, "email"), Attr(after[j].attrs, "email"))
    {
      if i == id {
        assert customers[j] == after[j];
      } else if j == id {
        assert customers[i] == after[i];
      }
    }
  }

  /** CustomerController::store; answers the new customer's id. */
  method Store(db: Db, current: Option<User>, data: Request) returns (resp: Response<int>)
    requires db.CustomersValid()
    modifies db`customers, db`nextCustomerId
    ensures db.CustomersValid()
    ensures !RequireAuth(current, CustomerRoles).Granted? ==> resp == Denied(RequireAuth(current, CustomerRoles))
    ensures RequireAuth(current, CustomerRoles).Granted? && !AllFilled(data, CustomerRequired) ==>
      resp == Failure(400, MissingRequiredFields)
    ensures RequireAuth(current, CustomerRoles).Granted? && AllFilled(data, CustomerRequired) &&
            !IsEmpty(Get(data, "email")) && EmailTaken(old(db.customers), Get(data, "email"), None) ==>
      resp == Failure(409, CustomerEmailExists)
    ensures resp.Success? <==>
      RequireAuth(current, CustomerRoles).Granted? && AllFilled(data, CustomerRequired) &&
      (IsEmpty(Get(data, "email")) || !EmailTaken(old(db.customers), Get(data, "email"), None))
    ensures resp.Failure? ==> db.customers == old(db.customers) && db.nextCustomerId == old(db.nextCustomerId)
    ensures resp.Success? ==>
      && resp == Success(201, old(db.nextCustomerId))
      && old(db.nextCustomerId) !in old(db.customers)
      && db.customers == old(db.customers)[old(db.nextCustomerId) := NewCustomer(data)]
      && db.nextCustomerId == old(db.nextCustomerId) + 1
  {
    var access := RequireAuth(current, CustomerRoles);
    if !access.Granted? {
      return Denied(access);
    }
    var valid := ValidateRequired(data, CustomerRequired);
    if !valid {
      return Failure(400, MissingRequiredFields);
    }
    var email := Get(data, "email");
    if !IsEmpty(email) && EmailTaken(db.customers, email, None) {
      return Failure(409, CustomerEmailExists);
    }
    var id := db.nextCustomerId;
    var c := NewCustomer(data);
    UniqueEmailsSet(db.customers, id, c);
    db.customers := db.customers[id := c];
    db.nextCustomerId := id + 1;
    return Success(201, id);
  }

  /** An update that passed the email check keeps active emails unique. */
  lemma UpdateKeepsUniqueEmails(customers: map<int, Customer>, id: int, data: Request)
    requires UniqueEmails(customers) && id in customers
    requires IsEmpty(Get(data, "email")) || !EmailTaken(customers, Get(data, "email"), Some(id))
    ensures UniqueEmails(customers[id := customers[id].(attrs := customers[id].attrs + Picked(data, CustomerFields))])
  {
    var old_ := customers[id];
    var row := old_.(attrs := old_.attrs + Picked(data, CustomerFields));
    var email := Attr(row.attrs, "email");
    PickedUpdate(old_.attrs, data, CustomerFields, "email");
    if row.active && !IsEmpty(email) && !IsSet(data, "email") {
      assert email == Attr(old_.attrs, "email");
      forall k | k in customers && customers[k].active && k != id && !IsEmpty(Attr(customers[k].attrs, "email"))
        ensures !SameText(Attr(customers[k].attrs, "email"), email)
      {
        assert !SameText(Attr(customers[id].attrs, "email"), Attr(customers[k].attrs, "email"));
      }
    }
    UniqueEmailsSet(customers, id, row);
  }

  /** CustomerController::update for customer `id`. */
  method Update(db: Db, current: Option<User>, id: int, data: Request) returns (resp: Response<()>)
    requires db.CustomersValid()
    modifies db`customers
    ensures db.CustomersValid()
    ensures !RequireAuth(current, CustomerRoles).Granted? ==> resp == Denied(RequireAuth(current, CustomerRoles))
    ensures RequireAuth(current, CustomerRoles).Granted? && !(id in old(db.customers) && old(db.customers)[id].active) ==>
      resp == Failure(404, CustomerNotFound)
    ensures RequireAuth(current, CustomerRoles).Granted? && id in old(db.customers) && old(db.customers)[id].active &&
            !IsEmpty(Get(data, "email")) && EmailTaken(old(db.customers), Get(data, "email"), Some(id)) ==>
      resp == Failure(409, CustomerEmailExists)
    ensures RequireAuth(current, CustomerRoles).Granted? && id in old(db.customers) && old(db.customers)[id].active &&
            (IsEmpty(Get(data, "email")) || !EmailTaken(old(db.customers), Get(data, "email"), Some(id))) &&
            Picked(data, CustomerFields) == map[] ==>
      resp == Failure(400, NoFieldsToUpdate)
    ensures resp.Success? <==>
      RequireAuth(current, CustomerRoles).Granted? && id in old(db.customers) && old(db.customers)[id].active &&
      (IsEmpty(Get(data, "email")) || !EmailTaken(old(db.customers), Get(data, "email"), Some(id))) &&
      Picked(data, CustomerFields) != map[]
    ensures resp.Failure? ==> db.customers == old(db.customers)
    ensures resp.Success? ==> (resp == Success(200, ()) && id in old(db.customers) &&
      db.customers == old(db.customers)[id := old(db.customers)[id].(attrs := old(db.customers)[id].attrs + Picked(data, CustomerFields))])
  {
    var access := RequireAuth(current, CustomerRoles);
    if !access.Granted? {
      return Denied(access);
    }
    if !(id in db.customers && db.customers[id].active) {
      return Failure(404, CustomerNotFound);
    }
    var email := Get(data, "email");
    if !IsEmpty(email) && EmailTaken(db.customers, email, Some(id)) {
      return Failure(409, CustomerEmailExists);
    }
    var changes := PickFields(data, CustomerFields);
    if changes == map[] {
      return Failure(400, NoFieldsToUpdate);
    }
    var row := db.customers[id].(attrs := db.customers[id].attrs + changes);
    UpdateKeepsUniqueEmails(db.customers, id, data);
    db.customers := db.customers[id := row];
    return Success(200, ());
  }

  /** CustomerController::destroy: a soft delete of an active customer. */
  method Destroy(db: Db, current: Option<User>, id: int) returns (resp: Response<()>)
    requires db.CustomersValid()
    modifies db`customers
    ensures db.CustomersValid()
    ensures !RequireAuth(current, CustomerRoles).Granted? ==> resp == Denied(RequireAuth(current, CustomerRoles))
    ensures resp.Success? <==>
      RequireAuth(current, CustomerRoles).Granted? && id in old(db.customers) && old(db.customers)[id].active
    ensures RequireAuth(current, CustomerRoles).Granted? && !resp.Success? ==> resp == Failure(404, CustomerNotFound)
    ensures resp.Failure? ==> db.customers == old(db.customers)
    ensures resp.Success? ==> (resp == Success(200, ()) && id in old(db.customers) &&
      db.customers == old(db.customers)[id := old(db.customers)[id].(active := false)])
  {
    var access := RequireAuth(current, CustomerRoles);
    if !access.Granted? {
      return Denied(access);
    }
    if !(id in db.customers && db.customers[id].active) {
      return Failure(404, CustomerNotFound);
    }
    var row := db.customers[id].(active := false);
    UniqueEmailsSet(db.customers, id, row);
    db.customers := db.customers[id := row];
    return Success(200, ());
  }

  /** A deleted customer's email is free again: after the soft delete no
      active customer other than the new one is in the way. */
  lemma DeletedEmailIsFree(customers: map<int, Customer>, id: int, email: Value)
    requires id in customers
    requires forall k :: k in customers && k != id && customers[k].active ==>
      !SameText(Attr(customers[k].attrs, "email"), email)
    ensures !EmailTaken(customers[id := customers[id].(active := false)], email, None)
  {
  }
}

=== FILE: dashboard.dfy ===
/** DashboardController: the relative-time labels of recent sales, and the
    sections of the dashboard each role is shown. Sums over sale dates and
    the recent-sales query come in as parameters; the counts are taken from
    the tables. */
module Dashboard {
  import opened Core
  import opened Storage
  import Inventory

  const LowStockRoles := ["admin", "manager", "inventory_staff"]
  const TotalsRoles := ["admin", "manager"]
  const RecentSalesRoles := ["admin", "manager", "cashier"]

  // ---------------------------------------------------------------------------
  // timeAgo

  /** The band `timeAgo` puts an elapsed time in, with the whole number of
      units it shows. */
  datatype Ago = JustNow | Minutes(n: int) | Hours(n: int) | Days(n: int) | OnDate

  /** The thresholds of `timeAgo`, for `elapsed` seconds since the sale. */
  function Elapsed(elapsed: int): (a: Ago)
    ensures a == JustNow <==> elapsed < 60
    ensures a.Minutes? <==> 60 <= elapsed < 3600
    ensures a.Hours? <==> 3600 <= elapsed < 86400
    ensures a.Days? <==> 86400 <= elapsed < 2592000
    ensures a == OnDate <==> elapsed >= 2592000
    ensures a.Minutes? ==> 1 <= a.n < 60 && a.n * 60 <= elapsed < (a.n + 1) * 60
    ensures a.Hours? ==> 1 <= a.n < 24 && a.n * 3600 <= elapsed < (a.n + 1) * 3600
    ensures a.Days? ==> 1 <= a.n < 30 && a.n * 86400 <= elapsed < (a.n + 1) * 86400
  {
    if elapsed < 60 then JustNow
    else if elapsed < 3600 then Minutes(elapsed / 60)
    else if elapsed < 86400 then Hours(elapsed / 3600)
    else if elapsed < 2592000 then Days(elapsed / 86400)
    else OnDate
  }

  /** DashboardController::timeAgo. `dateText` is `date('M j, Y', …)` of the sale's time. */
  function TimeAgo(elapsed: int, dateText: string): string {
    match Elapsed(elapsed)
    case JustNow => "Just now"
    case Minutes(n) => NatToString(n) + " minutes ago"
    case Hours(n) => NatToString(n) + " hours ago"
    case Days(n) => NatToString(n) + " days ago"
    case OnDate => dateText
  }

  /** What the label says: "Just now" under a minute, the date from 30 days
      on, and in between a count that reads back as the whole units elapsed,
      followed by the unit. */
  lemma TimeAgoReadsBack(elapsed: int, dateText: string)
    ensures elapsed < 60 ==> TimeAgo(elapsed, dateText) == "Just now"
    ensures elapsed >= 2592000 ==> TimeAgo(elapsed, dateText) == dateText
    ensures 60 <= elapsed < 3600 ==>
      var t := TimeAgo(elapsed, dateText);
      ParseDigits(t, 0) == elapsed / 60 && |t| > 12 && t[|t| - 12..] == " minutes ago"
    ensures 3600 <= elapsed < 86400 ==>
      var t := TimeAgo(elapsed, dateText);
      ParseDigits(t, 0) == elapsed / 3600 && |t| > 10 && t[|t| - 10..] == " hours ago"
    ensures 86400 <= elapsed < 2592000 ==>
      var t := TimeAgo(elapsed, dateText);
      ParseDigits(t, 0) == elapsed / 86400 && |t| > 9 && t[|t| - 9..] == " days ago"
  {
    match Elapsed(elapsed)
    case Minutes(n) => CountedReadsBack(n, " minutes ago");
    case Hours(n) => CountedReadsBack(n, " hours ago");
    case Days(n) => CountedReadsBack(n, " days ago");
    case _ =>
  }

  /** The digits of a count followed by its unit read back as the count. */
  lemma CountedReadsBack(n: nat, unit: string)
    requires unit != [] && unit[0] == ' '
    ensures var t := NatToString(n) + unit;
      ParseDigits(t, 0) == n && |t| > |unit| && t[|t| - |unit|..] == unit
  {
    NatToStringRoundTrip(n);
    ParseDigitsStops(NatToString(n), unit, 0);
  }

  /** The label grows with the elapsed time: a later band never comes earlier,
      and within a band the count does not go down. */
  lemma ElapsedMonotone(t1: int, t2: int)
    requires t1 <= t2
    ensures Elapsed(t1).Minutes? ==> !Elapsed(t2).JustNow?
    ensures Elapsed(t1).Hours? ==> Elapsed(t2).Hours? || Elapsed(t2).Days? || Elapsed(t2).OnDate?
    ensures Elapsed(t1).Days? ==> Elapsed(t2).Days? || Elapsed(t2).OnDate?
    ensures Elapsed(t1).OnDate? ==> Elapsed(t2).OnDate?
    ensures Elapsed(t1).Minutes? && Elapsed(t2).Minutes? ==> Elapsed(t1).n <= Elapsed(t2).n
    ensures Elapsed(t1).Hours? && Elapsed(t2).Hours? ==> Elapsed(t1).n <= Elapsed(t2).n
    ensures Elapsed(t1).Days? && Elapsed(t2).Days? ==> Elapsed(t1).n <= Elapsed(t2).n
  {
  }

  /** A sale dated in the future (negative elapsed time) reads "Just now". */
  lemma FutureSaleIsJustNow(elapsed: int, dateText: string)
    requires elapsed < 0
    ensures TimeAgo(elapsed, dateText) == "Just now"
  {
  }

  // ---------------------------------------------------------------------------
  // getDashboard

  /** A value of the dashboard payload. */
  datatype Stat = Amount(total: int) | Count(n: int) | Recent(rows: seq<RecentSale>)

  /** A row of the recent-sales query: the sale, its total, the customer's name
      (or 'Walk-in Customer') and its age in seconds with its date text. */
  datatype SaleRow = SaleRow(id: int, totalAmount: int, customerName: string, elapsed: int, dateText: string)

  datatype RecentSale = RecentSale(id: int, amount: int, customer: string, time: string)

  /** The payload entry of one recent sale: its age written by `timeAgo`. */
  function Label(r: SaleRow): RecentSale {
    RecentSale(r.id, r.totalAmount, r.customerName, TimeAgo(r.elapsed, r.dateText))
  }

  /** `array_map` of the labelling over the query rows. */
  predicate Labelled(out: seq<RecentSale>, rows: seq<SaleRow>) {
    |out| == |rows| && forall k :: 0 <= k < |rows| ==> out[k] == Label(rows[k])
  }

  /** The keys of the payload a role receives. */
  function Sections(role: string): (keys: set<string>)
    ensures "todaySales" in keys && "totalSales" in keys
    ensures "lowStockItems" in keys <==> role in LowStockRoles
    ensures "totalProducts" in keys <==> role in TotalsRoles
    ensures "totalCustomers" in keys <==> role in TotalsRoles
    ensures "recentSales" in keys <==> role in RecentSalesRoles
    ensures keys <= {"todaySales", "totalSales", "lowStockItems", "totalProducts", "totalCustomers", "recentSales"}
  {
    {"todaySales", "totalSales"}
    + (if role in LowStockRoles then {"lowStockItems"} else {})
    + (if role in TotalsRoles then {"totalProducts", "totalCustomers"} else {})
    + (if role in RecentSalesRoles then {"recentSales"} else {})
  }

  /** What each role sees: a cashier gets the sale figures but no stock or
      catalogue counts, inventory staff the low-stock count but no recent
      sales, and a role outside every list only the two sale totals. */
  lemma SectionsByRole()
    ensures Sections("admin") == Sections("manager") ==
      {"todaySales", "totalSales", "lowStockItems", "totalProducts", "totalCustomers", "recentSales"}
    ensures Sections("cashier") == {"todaySales", "totalSales", "recentSales"}
    ensures Sections("inventory_staff") == {"todaySales", "totalSales", "lowStockItems"}
    ensures Sections("Cashier") == {"todaySales", "totalSales"}
  {
    assert "Cashier" !in RecentSalesRoles && "Cashier" !in LowStockRoles && "Cashier" !in TotalsRoles;
    assert "inventory_staff" !in TotalsRoles && "inventory_staff" !in RecentSalesRoles;
    assert "cashier" !in LowStockRoles && "cashier" !in TotalsRoles;
  }

  /** The active products at or below their stock threshold. */
  function LowStockCount(db: Db): nat
    reads db
  {
    |Inventory.Listed(db.products, db.inventory, "low")|
  }

  function ActiveProducts(products: map<int, Product>): nat {
    |set id | id in products && products[id].active|
  }

  function ActiveCustomers(customers: map<int, Customer>): nat {
    |set id | id in customers && customers[id].active|
  }

  /** DashboardController::getDashboard. `todaySales` and `monthSales` are the
      sums of paid sales of the day and the month; `recent` is the result of
      the recent-sales query. */
  method GetDashboard(db: Db, current: Option<User>, todaySales: int, monthSales: int, recent: seq<SaleRow>)
    returns (resp: Response<map<string, Stat>>)
    ensures current.None? ==> resp == Failure(401, Unauthorized)
    ensures current.Some? ==> resp.Success? && resp.code == 200
    ensures resp.Success? ==>
      var d := resp.data;
      && d.Keys == Sections(current.value.role)
      && d["todaySales"] == Amount(todaySales)
      && d["totalSales"] == Amount(monthSales)
      && ("lowStockItems" in d ==> d["lowStockItems"] == Count(LowStockCount(db)))
      && ("totalProducts" in d ==> d["totalProducts"] == Count(ActiveProducts(db.products)))
      && ("totalCustomers" in d ==> d["totalCustomers"] == Count(ActiveCustomers(db.customers)))
      && ("recentSales" in d ==> d["recentSales"].Recent? && Labelled(d["recentSales"].rows, recent))
  {
    var access := RequireAuth(current, []);
    if !access.Granted? {
      return Denied(access);
    }
    var role := access.user.role;
    var data: map<string, Stat> := map[];
    data := data["todaySales" := Amount(todaySales)];
    data := data["totalSales" := Amount(monthSales)];
    if role in LowStockRoles {
      data := data["lowStockItems" := Count(LowStockCount(db))];
    }
    if role in TotalsRoles {
      data := data["totalProducts" := Count(ActiveProducts(db.products))];
      data := data["totalCustomers" := Count(ActiveCustomers(db.customers))];
    }
    if role in RecentSalesRoles {
      var rows: seq<RecentSale> := [];
      for k := 0 to |recent|
        invariant Labelled(rows, recent[..k])
      {
        rows := rows + [Label(recent[k])];
      }
      assert recent[..|recent|] == recent;
      data := data["recentSales" := Recent(rows)];
    }
    return Success(200, data);
  }
}

=== FILE: inventory.dfy ===
/** InventoryController: the stock status and list filters of `index`, the
    order it lists rows in, and `update`, which sets a product's stock and
    threshold and logs the change in quantity. */
module Inventory {
  import opened Core
  import opened Storage

  const InventoryRoles := ["admin", "manager", "inventory_staff"]

  datatype StockStatus = OutOfStock | LowStock | InStock

  /** The `stock_status` column. */
  function Status(r: StockRecord): (s: StockStatus)
    ensures s == OutOfStock <==> r.quantity == 0
    ensures s == LowStock <==> r.quantity != 0 && r.quantity <= r.threshold
    ensures s == InStock <==> r.quantity != 0 && r.quantity > r.threshold
  {
    if r.quantity == 0 then OutOfStock
    else if r.quantity <= r.threshold then LowStock
    else InStock
  }

  /** The first sort key of the listing. */
  function Rank(r: StockRecord): (k: int)
    ensures 1 <= k <= 3
    ensures k == 1 <==> Status(r) == OutOfStock
    ensures k == 2 <==> Status(r) == LowStock
  {
    if r.quantity == 0 then 1 else if r.quantity <= r.threshold then 2 else 3
  }

  /** The `filter` parameter: `low` keeps rows at or below their threshold,
      `out` keeps rows with no stock, anything else keeps every row. */
  predicate Selected(filter: string, r: StockRecord) {
    if filter == "low" then r.quantity <= r.threshold
    else if filter == "out" then r.quantity == 0
    else true
  }

  /** The products `index` lists (before paging and the name search): active
      products with a stock row that the filter keeps. */
  function Listed(products: map<int, Product>, inventory: map<int, StockRecord>, filter: string): (ids: set<int>)
    ensures forall id :: id in ids <==>
      id in products && products[id].active && id in inventory && Selected(filter, inventory[id])
  {
    set id | id in products && products[id].active && id in inventory && Selected(filter, inventory[id])
  }

  /** With a threshold of zero or more, the `low` filter keeps exactly the rows
      whose status is not `in_stock`. */
  lemma LowFilterMatchesStatus(r: StockRecord)
    requires r.threshold >= 0
    ensures Selected("low", r) <==> Status(r) != InStock
  {
  }

  /** The `out` filter keeps exactly the rows whose status is `out_of_stock`. */
  lemma OutFilterMatchesStatus(r: StockRecord)
    ensures Selected("out", r) <==> Status(r) == OutOfStock
  {
  }

  /** A negative threshold makes an empty row `out_of_stock` yet hides it from the `low` filter. */
  lemma NegativeThresholdHidesEmptyRow()
    ensures var r := StockRecord(0, -1, None);
      Status(r) == OutOfStock && !Selected("low", r)
  {
  }

  // ---------------------------------------------------------------------------
  // The listing order: status rank, then product name.

  /** Character-by-character order on names. */
  predicate LexLe(a: string, b: string)
    decreases |a|
  {
    a == [] || (b != [] && (a[0] < b[0] || (a[0] == b[0] && LexLe(a[1..], b[1..]))))
  }

  lemma {:induction false} LexLeTotal(a: string, b: string)
    ensures LexLe(a, b) || LexLe(b, a)
    decreases |a|
  {
    if a != [] && b != [] && a[0] == b[0] {
      LexLeTotal(a[1..], b[1..]);
    }
  }

  lemma {:induction false} LexLeTransitive(a: string, b: string, c: string)
    requires LexLe(a, b) && LexLe(b, c)
    ensures LexLe(a, c)
    decreases |a|
  {
    if a != [] && b != [] && c != [] && a[0] == b[0] && b[0] == c[0] {
      LexLeTransitive(a[1..], b[1..], c[1..]);
    }
  }

  lemma {:induction false} LexLeAntisymmetric(a: string, b: string)
    requires LexLe(a, b) && LexLe(b, a)
    ensures a == b
    decreases |a|
  {
    if a != [] {
      LexLeAntisymmetric(a[1..], b[1..]);
      assert a == [a[0]] + a[1..] && b == [b[0]] + b[1..];
    }
  }

  /** The product's name as text ("" when it has none). */
  function Name(p: Product): string {
    if "name" in p.attrs && p.attrs["name"].Str? then p.attrs["name"].s else ""
  }

  /** `ORDER BY <rank>, p.name`: whether product a may be listed before product b. */
  predicate ListedBefore(products: map<int, Product>, inventory: map<int, StockRecord>, a: int, b: int)
    requires a in products && a in inventory && b in products && b in inventory
  {
    Rank(inventory[a]) < Rank(inventory[b]) ||
    (Rank(inventory[a]) == Rank(inventory[b]) && LexLe(Name(products[a]), Name(products[b])))
  }

  /** Any two listed rows are comparable: out of stock first, then low, then in
      stock, each group by name. */
  lemma ListingOrderTotal(products: map<int, Product>, inventory: map<int, StockRecord>, a: int, b: int)
    requires a in products && a in inventory && b in products && b in inventory
    ensures ListedBefore(products, inventory, a, b) || ListedBefore(products, inventory, b, a)
    ensures Status(inventory[a]) == OutOfStock && Status(inventory[b]) != OutOfStock ==>
      ListedBefore(products, inventory, a, b) && !ListedBefore(products, inventory, b, a)
  {
    LexLeTotal(Name(products[a]), Name(products[b]));
  }

  lemma ListingOrderTransitive(products: map<int, Product>, inventory: map<int, StockRecord>, a: int, b: int, c: int)
    requires a in products && a in inventory && b in products && b in inventory && c in products && c in inventory
    requires ListedBefore(products, inventory, a, b) && ListedBefore(products, inventory, b, c)
    ensures ListedBefore(products, inventory, a, c)
  {
    if Rank(inventory[a]) == Rank(inventory[b]) == Rank(inventory[c]) {
      LexLeTransitive(Name(products[a]), Name(products[b]), Name(products[c]));
    }
  }

  // ---------------------------------------------------------------------------
  // update

  /** The notes of a logged change: the request's, or a default by direction. */
  function MovementNotes(data: Request, delta: int): Value {
    Coalesce(data, "notes", Str(if delta > 0 then "Stock replenishment" else "Stock adjustment"))
  }

  /** What `update` writes for a product whose stock row is `before`: the new
      row and the movements it logs (none, or one carrying the change). */
  datatype StockChange = StockChange(row: StockRecord, logged: seq<Movement>)

  function NewStock(id: int, before: StockRecord, data: Request, actor: int, now: int): (c: StockChange)
    ensures c.row.quantity == (if IsSet(data, "quantity") then ToInt(data["quantity"]) else before.quantity)
    ensures c.row.threshold ==
      (if IsSet(data, "low_stock_threshold") then ToInt(data["low_stock_threshold"]) else before.threshold)
    ensures c.row.lastRestocked == (if c.row.quantity > before.quantity then Some(now) else before.lastRestocked)
    ensures |c.logged| <= 1
    ensures c.logged == [] <==> c.row.quantity == before.quantity
    ensures forall m :: m in c.logged ==>
      && m.productId == id && m.orderId == None && m.actor == actor
      && m.kind == (if c.row.quantity > before.quantity then Restock else Adjustment)
      && Delta(m) == c.row.quantity - before.quantity
      && m.notes == MovementNotes(data, c.row.quantity - before.quantity)
  {
    var quantity := if IsSet(data, "quantity") then ToInt(data["quantity"]) else before.quantity;
    var threshold := if IsSet(data, "low_stock_threshold") then ToInt(data["low_stock_threshold"]) else before.threshold;
    var change := quantity - before.quantity;
    var restocked := if change > 0 then Some(now) else before.lastRestocked;
    var logged := if change == 0 then []
      else [Movement(id, if change > 0 then Restock else Adjustment, change, None, actor, MovementNotes(data, change))];
    StockChange(StockRecord(quantity, threshold, restocked), logged)
  }

  /** The movements `update` logs account for exactly the change it makes to
      the product's stock, and for nothing else. */
  lemma NewStockLogsChange(id: int, before: StockRecord, data: Request, actor: int, now: int, p: int)
    ensures var c := NewStock(id, before, data, actor, now);
      NetChange(c.logged, p) == (if p == id then c.row.quantity - before.quantity else 0)
  {
    var c := NewStock(id, before, data, actor, now);
    if c.logged != [] {
      assert c.logged[..0] == [];
    }
  }

  /** Sending only a threshold never logs a movement nor touches the stock. */
  lemma ThresholdOnlyLogsNothing(id: int, before: StockRecord, data: Request, actor: int, now: int)
    requires !IsSet(data, "quantity")
    ensures var c := NewStock(id, before, data, actor, now);
      c.logged == [] && c.row.quantity == before.quantity && c.row.lastRestocked == before.lastRestocked
  {
  }

  /** Writes one product's new stock row and appends its movements, keeping the
      ledger balanced. */
  method WriteStock(db: Db, id: int, c: StockChange)
    requires db.StockValid() && id in db.inventory
    requires forall p :: NetChange(c.logged, p) == (if p == id then c.row.quantity - db.inventory[id].quantity else 0)
    modifies db`inventory, db`movements
    ensures db.StockValid()
    ensures db.inventory == old(db.inventory)[id := c.row]
    ensures db.movements == old(db.movements) + c.logged
  {
    forall p | p in db.inventory
      ensures NetChange(db.movements + c.logged, p) == NetChange(db.movements, p) + NetChange(c.logged, p)
    {
      NetChangeConcat(db.movements, c.logged, p);
    }
    db.movements := db.movements + c.logged;
    db.inventory := db.inventory[id := c.row];
  }

  /** InventoryController::update for product `id`. `now` is the current time. */
  method UpdateStock(db: Db, current: Option<User>, id: int, data: Request, now: int) returns (resp: Response<()>)
    requires db.Valid()
    modifies db`inventory, db`movements
    ensures db.Valid()
    ensures !RequireAuth(current, InventoryRoles).Granted? ==> resp == Denied(RequireAuth(current, InventoryRoles))
    ensures RequireAuth(current, InventoryRoles).Granted? &&
            !IsSet(data, "quantity") && !IsSet(data, "low_stock_threshold") ==>
      resp == Failure(400, NoFieldsToUpdate)
    ensures (RequireAuth(current, InventoryRoles).Granted? &&
             (IsSet(data, "quantity") || IsSet(data, "low_stock_threshold")) && id !in old(db.inventory)) ==>
      resp == Failure(404, NotInInventory)
    ensures resp.Success? <==>
      RequireAuth(current, InventoryRoles).Granted? &&
      (IsSet(data, "quantity") || IsSet(data, "low_stock_threshold")) && id in old(db.inventory)
    ensures resp.Failure? ==> db.inventory == old(db.inventory) && db.movements == old(db.movements)
    ensures resp.Success? ==> (id in old(db.inventory) &&
      var c := NewStock(id, old(db.inventory)[id], data, current.value.id, now);
      db.inventory == old(db.inventory)[id := c.row] && db.movements == old(db.movements) + c.logged)
  {
    var access := RequireAuth(current, InventoryRoles);
    if !access.Granted? {
      return Denied(access);
    }
    if !IsSet(data, "quantity") && !IsSet(data, "low_stock_threshold") {
      return Failure(400, NoFieldsToUpdate);
    }
    if id !in db.inventory {
      return Failure(404, NotInInventory);
    }
    var c := NewStock(id, db.inventory[id], data, access.user.id, now);
    forall p ensures NetChange(c.logged, p) == (if p == id then c.row.quantity - db.inventory[id].quantity else 0) {
      NewStockLogsChange(id, db.inventory[id], data, access.user.id, now, p);
    }
    WriteStock(db, id, c);
    return Success(200, ());
  }
}

=== FILE: orders.dfy ===
/** OrderController: placing an order that reserves stock item by item inside
    one transaction, changing an order's status, and who may see which order. */
module Orders {
  import opened Core
  import opened Storage

  const OrderRoles := ["Admin", "Manager", "Cashier"]
  const StatusRoles := ["Admin", "Manager"]
  const OrderRequired := ["customer_id", "items", "total_amount"]
  const ValidStatuses := ["pending", "processing", "shipped", "delivered", "cancelled"]
  const ReserveNote := Str("Stock reserved for order")

  /** What a placed order answers with. */
  datatype Placed = Placed(orderId: int, orderNumber: string)

  /** An order with its lines, as `getOrder` answers. */
  datatype OrderView = OrderView(order: Order, items: seq<OrderItem>)

  /** The tables the item loop writes: the inventory, the order items and the
      movement log. */
  datatype Reservation = Reservation(stock: map<int, StockRecord>, lines: seq<OrderItem>, moves: seq<Movement>)

  /** `'ORD-' . date('Ymd') . '-' . str_pad(rand(1, 9999), 4, '0', STR_PAD_LEFT)`. */
  function OrderNumber(day: string, draw: int): string
    requires 1 <= draw <= 9999
  {
    "ORD-" + day + "-" + DrawText(draw)
  }

  /** `isset($item['product_id'], $item['quantity'], $item['unit_price'])`. */
  predicate CompleteItem(item: Value) {
    Field(item, "product_id") != Null && Field(item, "quantity") != Null && Field(item, "unit_price") != Null
  }

  /** The product id and the quantity read as numbers, so the stock query and
      the comparison go through. */
  predicate Keyed(item: Value) {
    Numeric(Field(item, "product_id")).Some? && Numeric(Field(item, "quantity")).Some?
  }

  /** The unit price reads as a number too, so the line total can be computed. */
  predicate NumericItem(item: Value) {
    Keyed(item) && Numeric(Field(item, "unit_price")).Some?
  }

  function ProductOf(item: Value): int
    requires Keyed(item)
  {
    Numeric(Field(item, "product_id")).value
  }

  function QuantityOf(item: Value): int
    requires Keyed(item)
  {
    Numeric(Field(item, "quantity")).value
  }

  function UnitPriceOf(item: Value): int
    requires NumericItem(item)
  {
    Numeric(Field(item, "unit_price")).value
  }

  /** `$stock < $item['quantity']`: with an inventory row, its quantity is
      compared; without one the stock reads as `false`, which is below every
      non-zero quantity. */
  predicate Short(stock: map<int, StockRecord>, pid: int, q: int) {
    if pid in stock then stock[pid].quantity < q else q != 0
  }

  /** The `order_items` row of an item. */
  function LineOf(orderId: int, item: Value): OrderItem
    requires NumericItem(item)
  {
    OrderItem(orderId, ProductOf(item), QuantityOf(item), UnitPriceOf(item), QuantityOf(item) * UnitPriceOf(item))
  }

  /** The `out` movement of an item. */
  function MoveOf(orderId: int, actor: int, item: Value): Movement
    requires NumericItem(item)
  {
    Movement(ProductOf(item), Out, QuantityOf(item), Some(orderId), actor, ReserveNote)
  }

  /** `UPDATE inventory SET stock_quantity = stock_quantity - ? WHERE product_id = ?`. */
  function Take(stock: map<int, StockRecord>, pid: int, q: int): (s: map<int, StockRecord>)
    ensures s.Keys == stock.Keys
    ensures forall p :: p in stock && p != pid ==> s[p] == stock[p]
    ensures pid in stock ==> s[pid] == stock[pid].(quantity := stock[pid].quantity - q)
  {
    if pid in stock then stock[pid := stock[pid].(quantity := stock[pid].quantity - q)] else stock
  }

  /** One pass of the item loop: the guard, the stock check, then the line
      with its total, the stock decrement and the movement. */
  function ReserveItem(r: Reservation, orderId: int, actor: int, item: Value): (next: Result<Reservation>)
    ensures !CompleteItem(item) ==> next == Err(InvalidItemData)
    ensures CompleteItem(item) && !Keyed(item) ==> next == Err(MalformedNumber)
    ensures CompleteItem(item) && Keyed(item) && Short(r.stock, ProductOf(item), QuantityOf(item)) ==>
      next == Err(InsufficientStock(Field(item, "product_id")))
    ensures (CompleteItem(item) && Keyed(item) && !Short(r.stock, ProductOf(item), QuantityOf(item)) &&
             !NumericItem(item)) ==> next == Err(MalformedNumber)
    ensures next.Ok? ==> NumericItem(item) && !Short(r.stock, ProductOf(item), QuantityOf(item))
  {
    if !CompleteItem(item) then Err(InvalidItemData)
    else if !Keyed(item) then Err(MalformedNumber)
    else if Short(r.stock, ProductOf(item), QuantityOf(item)) then Err(InsufficientStock(Field(item, "product_id")))
    else if !NumericItem(item) then Err(MalformedNumber)
    else Ok(Reservation(Take(r.stock, ProductOf(item), QuantityOf(item)),
                        r.lines + [LineOf(orderId, item)],
                        r.moves + [MoveOf(orderId, actor, item)]))
  }

  /** The item loop over a list of items: the first failing item decides. */
  function ReserveAll(r: Reservation, orderId: int, actor: int, items: seq<Value>): (out: Result<Reservation>)
    ensures out.Ok? ==> |out.value.lines| == |r.lines| + |items| && |out.value.moves| == |r.moves| + |items|
    ensures out.Ok? ==> out.value.stock.Keys == r.stock.Keys
    decreases |items|
  {
    if items == [] then Ok(r)
    else
      match ReserveAll(r, orderId, actor, items[..|items| - 1])
      case Err(e) => Err(e)
      case Ok(mid) => ReserveItem(mid, orderId, actor, items[|items| - 1])
  }

  /** The quantity the items ask of product `p`. */
  function Requested(items: seq<Value>, p: int): int
    decreases |items|
  {
    if items == [] then 0
    else
      var last := items[|items| - 1];
      Requested(items[..|items| - 1], p) + (if NumericItem(last) && ProductOf(last) == p then QuantityOf(last) else 0)
  }

  // ---------------------------------------------------------------------------
  // Properties of the item loop

  /** A committed reservation appends, for item k, one line whose total is
      quantity × unit price and one `out` movement carrying the quantity and
      the order id; what was there before is kept. */
  lemma {:induction false} ReserveAllShape(r: Reservation, orderId: int, actor: int, items: seq<Value>)
    requires ReserveAll(r, orderId, actor, items).Ok?
    ensures var out := ReserveAll(r, orderId, actor, items).value;
      && |out.lines| == |r.lines| + |items| && |out.moves| == |r.moves| + |items|
      && out.lines[..|r.lines|] == r.lines && out.moves[..|r.moves|] == r.moves
      && forall k :: 0 <= k < |items| ==>
           && NumericItem(items[k])
           && out.lines[|r.lines| + k] == LineOf(orderId, items[k])
           && out.lines[|r.lines| + k].totalPrice == QuantityOf(items[k]) * UnitPriceOf(items[k])
           && out.moves[|r.moves| + k] == MoveOf(orderId, actor, items[k])
    decreases |items|
  {
    if items != [] {
      var init := items[..|items| - 1];
      ReserveAllShape(r, orderId, actor, init);
      assert forall k :: 0 <= k < |init| ==> init[k] == items[k];
    }
  }

  /** A committed reservation lowers each product's stock by exactly what the
      items ask of it, and touches nothing else in its row. */
  lemma {:induction false} ReserveAllStock(r: Reservation, orderId: int, actor: int, items: seq<Value>)
    requires ReserveAll(r, orderId, actor, items).Ok?
    ensures var out := ReserveAll(r, orderId, actor, items).value;
      && out.stock.Keys == r.stock.Keys
      && forall p :: p in r.stock ==>
           out.stock[p] == r.stock[p].(quantity := r.stock[p].quantity - Requested(items, p))
    decreases |items|
  {
    if items != [] {
      ReserveAllStock(r, orderId, actor, items[..|items| - 1]);
    }
  }

  /** A reservation never drives a stock row below zero when it starts at zero
      or above: each item is checked against the stock left by the items before it. */
  lemma {:induction false} ReserveAllKeepsStock(r: Reservation, orderId: int, actor: int, items: seq<Value>)
    requires ReserveAll(r, orderId, actor, items).Ok?
    ensures var out := ReserveAll(r, orderId, actor, items).value;
      forall p :: p in r.stock && r.stock[p].quantity >= 0 ==> p in out.stock && out.stock[p].quantity >= 0
    decreases |items|
  {
    if items != [] {
      var init := items[..|items| - 1];
      ReserveAllKeepsStock(r, orderId, actor, init);
      ReserveAllStock(r, orderId, actor, init);
    }
  }

  /** An item with a negative quantity passes the stock check and raises the
      stock of its product. */
  lemma NegativeQuantityRaisesStock(r: Reservation, orderId: int, actor: int, item: Value)
    requires CompleteItem(item) && NumericItem(item) && QuantityOf(item) < 0 && ProductOf(item) in r.stock
    requires r.stock[ProductOf(item)].quantity >= 0
    ensures ReserveItem(r, orderId, actor, item).Ok?
    ensures ReserveItem(r, orderId, actor, item).value.stock[ProductOf(item)].quantity > r.stock[ProductOf(item)].quantity
  {
  }

  /** Each step keeps every stock row equal to its opening quantity plus the
      movements logged for it. */
  lemma ReserveItemBalanced(r: Reservation, orderId: int, actor: int, item: Value, baseline: map<int, int>)
    requires Balanced(r.stock, r.moves, baseline)
    requires ReserveItem(r, orderId, actor, item).Ok?
    ensures var next := ReserveItem(r, orderId, actor, item).value;
      Balanced(next.stock, next.moves, baseline) && next.stock.Keys == r.stock.Keys
  {
    var next := ReserveItem(r, orderId, actor, item).value;
    var m := MoveOf(orderId, actor, item);
    forall p | p in next.stock
      ensures p in baseline && next.stock[p].quantity == baseline[p] + NetChange(next.moves, p)
    {
      NetChangeAppend(r.moves, m, p);
    }
  }

  /** Once a prefix of the items fails, the whole list fails the same way. */
  lemma {:induction false} ReserveAllPrefixError(r: Reservation, orderId: int, actor: int, items: seq<Value>, i: int)
    requires 0 <= i <= |items|
    requires ReserveAll(r, orderId, actor, items[..i]).Err?
    ensures ReserveAll(r, orderId, actor, items) == ReserveAll(r, orderId, actor, items[..i])
    decreases |items| - i
  {
    if i < |items| {
      assert items[..i + 1][..i] == items[..i];
      ReserveAllPrefixError(r, orderId, actor, items, i + 1);
    } else {
      assert items[..i] == items;
    }
  }

  /** Two orders of one day get the same number exactly when the draws agree. */
  lemma OrderNumberCollision(day: string, draw1: int, draw2: int)
    requires 1 <= draw1 <= 9999 && 1 <= draw2 <= 9999
    ensures OrderNumber(day, draw1) == OrderNumber(day, draw2) <==> draw1 == draw2
  {
    DrawTextInjective("ORD-" + day + "-", draw1, draw2);
  }

  // ---------------------------------------------------------------------------
  // Status changes and visibility

  /** `in_array($input['status'], $validStatuses)` with PHP's loose comparison,
      and the text the database then stores: `true` equals every non-empty
      string, and is bound as "1". */
  function StatusText(v: Value): (t: Option<string>)
    ensures v.Str? ==> (t.Some? <==> v.s in ValidStatuses)
    ensures v.Str? && t.Some? ==> t.value == v.s
    ensures !v.Str? ==> (t.Some? <==> v == Bool(true))
  {
    match v
    case Str(s) => if s in ValidStatuses then Some(s) else None
    case Bool(b) => if b then Some("1") else None
    case _ => None
  }

  /** A status outside the list reaches the database: `true` is accepted and stored as "1". */
  lemma TrueStatusAccepted()
    ensures StatusText(Bool(true)) == Some("1") && "1" !in ValidStatuses
  {
  }

  /** Whether the user may read an order: only the role spelled exactly
      `Cashier` is limited to the orders it created. */
  predicate MayView(u: User, o: Order) {
    u.role != "Cashier" || o.createdBy == u.id
  }

  /** The ids `getOrders` selects before paging: the status filter applies
      unless the parameter is empty, and a cashier sees only its own orders. */
  function VisibleOrders(u: User, orders: map<int, Order>, status: string): (ids: set<int>)
    ensures ids <= orders.Keys
    ensures forall id :: id in orders ==>
      (id in ids <==> MayView(u, orders[id]) && (IsEmpty(Str(status)) || orders[id].status == status))
    ensures u.role == "Cashier" ==> forall id :: id in ids ==> orders[id].createdBy == u.id
  {
    set id | id in orders && MayView(u, orders[id]) && (IsEmpty(Str(status)) || orders[id].status == status)
  }

  /** A user whose role is spelled `cashier` is not limited to its own orders. */
  lemma LowercaseCashierSeesAll(id: int, orders: map<int, Order>)
    ensures VisibleOrders(User(id, "cashier", true), orders, "") == orders.Keys
  {
  }

  /** The lines of one order, in insertion order (`ORDER BY oi.id`). */
  function ItemsOf(rows: seq<OrderItem>, orderId: int): (items: seq<OrderItem>)
    ensures forall x :: x in items ==> x in rows && x.orderId == orderId
    ensures forall x :: x in rows && x.orderId == orderId ==> x in items
    ensures |rows| == 1 ==> items == if rows[0].orderId == orderId then rows else []
    decreases |rows|
  {
    if rows == [] then []
    else
      var last := rows[|rows| - 1];
      ItemsOf(rows[..|rows| - 1], orderId) + (if last.orderId == orderId then [last] else [])
  }

  /** The lines of rows split in two are the lines of each part, in the same
      order. With the single-row case of `ItemsOf`, this pins down the order
      of an order's lines. */
  lemma {:induction false} ItemsOfConcat(a: seq<OrderItem>, b: seq<OrderItem>, orderId: int)
    ensures ItemsOf(a + b, orderId) == ItemsOf(a, orderId) + ItemsOf(b, orderId)
    decreases |b|
  {
    if b == [] {
      assert a + b == a;
    } else {
      var init := b[..|b| - 1];
      assert (a + b)[..|a + b| - 1] == a + init;
      ItemsOfConcat(a, init, orderId);
    }
  }

  /** Every line of the order appears as often as it was inserted, and no
      line of another order appears. */
  lemma {:induction false} ItemsOfCount(rows: seq<OrderItem>, orderId: int, x: OrderItem)
    ensures multiset(ItemsOf(rows, orderId))[x] == if x.orderId == orderId then multiset(rows)[x] else 0
    decreases |rows|
  {
    if rows != [] {
      var init := rows[..|rows| - 1];
      ItemsOfCount(init, orderId, x);
      assert rows == init + [rows[|rows| - 1]];
    }
  }

  // ---------------------------------------------------------------------------
  // The handlers

  /** One pass of the item loop against the database: check the item and the
      stock, insert the line, lower the stock and log the movement. */
  method ReserveStock(db: Db, orderId: int, actor: int, item: Value) returns (err: Option<Error>)
    requires Balanced(db.inventory, db.movements, db.baseline)
    modifies db`orderItems, db`inventory, db`movements
    ensures Balanced(db.inventory, db.movements, db.baseline)
    ensures var next := ReserveItem(Reservation(old(db.inventory), old(db.orderItems), old(db.movements)), orderId, actor, item);
      && (err.None? <==> next.Ok?)
      && (next.Err? ==> err == Some(next.error))
      && (next.Ok? ==> Reservation(db.inventory, db.orderItems, db.movements) == next.value)
  {
    ghost var r := Reservation(db.inventory, db.orderItems, db.movements);
    if !CompleteItem(item) {
      return Some(InvalidItemData);
    }
    if !Keyed(item) {
      return Some(MalformedNumber);
    }
    var pid, q := ProductOf(item), QuantityOf(item);
    if Short(db.inventory, pid, q) {
      return Some(InsufficientStock(Field(item, "product_id")));
    }
    if !NumericItem(item) {
      return Some(MalformedNumber);
    }
    db.orderItems := db.orderItems + [LineOf(orderId, item)];
    db.inventory := Take(db.inventory, pid, q);
    db.movements := db.movements + [MoveOf(orderId, actor, item)];
    ReserveItemBalanced(r, orderId, actor, item, db.baseline);
    return None;
  }

  /** The item loop of `createOrder`: each item in turn is reserved; the first
      failing item stops the loop, leaving the rollback to the caller. */
  method ReserveItems(db: Db, orderId: int, actor: int, items: seq<Value>) returns (err: Option<Error>)
    requires Balanced(db.inventory, db.movements, db.baseline)
    modifies db`orderItems, db`inventory, db`movements
    ensures Balanced(db.inventory, db.movements, db.baseline)
    ensures var r := ReserveAll(Reservation(old(db.inventory), old(db.orderItems), old(db.movements)), orderId, actor, items);
      && (err.None? <==> r.Ok?)
      && (r.Err? ==> err == Some(r.error))
      && (r.Ok? ==> Reservation(db.inventory, db.orderItems, db.movements) == r.value)
  {
    ghost var start := Reservation(db.inventory, db.orderItems, db.movements);
    for i := 0 to |items|
      invariant ReserveAll(start, orderId, actor, items[..i]) == Ok(Reservation(db.inventory, db.orderItems, db.movements))
      invariant Balanced(db.inventory, db.movements, db.baseline)
    {
      assert items[..i + 1][..i] == items[..i];
      err := ReserveStock(db, orderId, actor, items[i]);
      if err.Some? {
        ReserveAllPrefixError(start, orderId, actor, items, i + 1);
        return;
      }
    }
    assert items[..|items|] == items;
    return None;
  }

  /** The transaction of `createOrder`: insert the order row, run the item
      loop, and commit; when an item fails, roll back the order, its lines,
      the stock and the movement log. It keeps the parts of the database
      invariant over the tables it writes. The order id stays consumed, as a
      database sequence does not roll back. */
  method PlaceOrder(db: Db, order: Order, items: seq<Value>) returns (resp: Response<Placed>)
    requires db.OrdersValid() && db.StockValid()
    modifies db`orders, db`nextOrderId, db`inventory, db`orderItems, db`movements
    ensures db.OrdersValid() && db.StockValid()
    ensures db.nextOrderId == old(db.nextOrderId) + 1
    ensures var r := ReserveAll(Reservation(old(db.inventory), old(db.orderItems), old(db.movements)),
                                old(db.nextOrderId), order.createdBy, items);
      && (r.Err? ==>
            && resp == Failure(500, r.error)
            && db.orders == old(db.orders) && db.inventory == old(db.inventory)
            && db.orderItems == old(db.orderItems) && db.movements == old(db.movements))
      && (r.Ok? ==>
            && resp == Success(200, Placed(old(db.nextOrderId), order.number))
            && db.orders == old(db.orders)[old(db.nextOrderId) := order]
            && Reservation(db.inventory, db.orderItems, db.movements) == r.value)
  {
    var orders, inventory, orderItems, movements := db.orders, db.inventory, db.orderItems, db.movements;
    var orderId := db.nextOrderId;
    db.nextOrderId := orderId + 1;
    db.orders := db.orders[orderId := order];
    assert db.OrdersValid();
    ghost var start := Reservation(inventory, orderItems, movements);
    var err := ReserveItems(db, orderId, order.createdBy, items);
    if err.Some? {
      db.orders, db.inventory, db.orderItems, db.movements := orders, inventory, orderItems, movements;
      return Failure(500, err.value);
    }
    ReserveAllStock(start, orderId, order.createdBy, items);
    return Success(200, Placed(orderId, order.number));
  }

  /** OrderController::createOrder. `today` is `date('Ymd')` and `draw` is `rand(1, 9999)`. */
  method CreateOrder(db: Db, current: Option<User>, data: Request, today: string, draw: int)
    returns (resp: Response<Placed>)
    requires db.Valid()
    requires 1 <= draw <= 9999
    modifies db`orders, db`nextOrderId, db`inventory, db`orderItems, db`movements
    ensures db.Valid()
    ensures !RequireAuth(current, OrderRoles).Granted? ==> resp == Denied(RequireAuth(current, OrderRoles))
    ensures RequireAuth(current, OrderRoles).Granted? && !AllFilled(data, OrderRequired) ==>
      resp == Failure(400, MissingRequiredFields)
    ensures RequireAuth(current, OrderRoles).Granted? && AllFilled(data, OrderRequired) && !Get(data, "items").Arr? ==>
      resp == Failure(400, OrderNeedsItems)
    ensures resp.Failure? ==>
      && db.orders == old(db.orders) && db.inventory == old(db.inventory)
      && db.orderItems == old(db.orderItems) && db.movements == old(db.movements)
    ensures (RequireAuth(current, OrderRoles).Granted? && AllFilled(data, OrderRequired) && Get(data, "items").Arr?) ==>
      db.nextOrderId == old(db.nextOrderId) + 1
    ensures !(RequireAuth(current, OrderRoles).Granted? && AllFilled(data, OrderRequired) && Get(data, "items").Arr?) ==>
      db.nextOrderId == old(db.nextOrderId)
    ensures resp.Success? <==>
      && RequireAuth(current, OrderRoles).Granted?
      && AllFilled(data, OrderRequired) && Get(data, "items").Arr?
      && ReserveAll(Reservation(old(db.inventory), old(db.orderItems), old(db.movements)),
                    old(db.nextOrderId), current.value.id, Get(data, "items").elems).Ok?
    ensures RequireAuth(current, OrderRoles).Granted? && AllFilled(data, OrderRequired) && Get(data, "items").Arr? ==>
      var r := ReserveAll(Reservation(old(db.inventory), old(db.orderItems), old(db.movements)),
                          old(db.nextOrderId), current.value.id, Get(data, "items").elems);
      r.Err? ==> resp == Failure(500, r.error)
    ensures resp.Success? ==>
      var id := old(db.nextOrderId);
      var r := ReserveAll(Reservation(old(db.inventory), old(db.orderItems), old(db.movements)),
                          id, current.value.id, Get(data, "items").elems).value;
      && resp == Success(200, Placed(id, OrderNumber(today, draw)))
      && db.orders == old(db.orders)[id := Order(OrderNumber(today, draw), Get(data, "customer_id"),
                                                 Get(data, "total_amount"), "pending", "pending", current.value.id)]
      && Reservation(db.inventory, db.orderItems, db.movements) == r
  {
    var access := RequireAuth(current, OrderRoles);
    if !access.Granted? {
      return Denied(access);
    }
    var user := access.user;
    var valid := ValidateRequired(data, OrderRequired);
    if !valid {
      return Failure(400, MissingRequiredFields);
    }
    assert Filled(data, OrderRequired[1]);
    if IsEmpty(data["items"]) || !data["items"].Arr? {
      return Failure(400, OrderNeedsItems);
    }
    var order := Order(OrderNumber(today, draw), Get(data, "customer_id"), Get(data, "total_amount"),
                       "pending", "pending", user.id);
    resp := PlaceOrder(db, order, data["items"].elems);
  }

  /** OrderController::updateOrderStatus. */
  method UpdateOrderStatus(db: Db, current: Option<User>, id: int, data: Request) returns (resp: Response<()>)
    requires db.Valid()
    modifies db`orders
    ensures db.Valid()
    ensures !RequireAuth(current, StatusRoles).Granted? ==> resp == Denied(RequireAuth(current, StatusRoles))
    ensures RequireAuth(current, StatusRoles).Granted? && !Filled(data, "status") ==>
      resp == Failure(400, MissingRequiredFields)
    ensures RequireAuth(current, StatusRoles).Granted? && Filled(data, "status") && StatusText(data["status"]).None? ==>
      resp == Failure(400, InvalidStatus)
    ensures (RequireAuth(current, StatusRoles).Granted? && Filled(data, "status") &&
             StatusText(data["status"]).Some? && id !in old(db.orders)) ==> resp == Failure(404, OrderNotFound)
    ensures resp.Success? <==>
      RequireAuth(current, StatusRoles).Granted? && Filled(data, "status") &&
      StatusText(data["status"]).Some? && id in old(db.orders)
    ensures resp.Success? ==>
      db.orders == old(db.orders)[id := old(db.orders)[id].(status := StatusText(data["status"]).value)]
    ensures resp.Failure? ==> db.orders == old(db.orders)
  {
    var access := RequireAuth(current, StatusRoles);
    if !access.Granted? {
      return Denied(access);
    }
    var valid := ValidateRequired(data, ["status"]);
    if !valid {
      assert !Filled(data, ["status"][0]);
      return Failure(400, MissingRequiredFields);
    }
    assert Filled(data, ["status"][0]);
    var status := StatusText(data["status"]);
    if status.None? {
      return Failure(400, InvalidStatus);
    }
    if id !in db.orders {
      return Failure(404, OrderNotFound);
    }
    db.orders := db.orders[id := db.orders[id].(status := status.value)];
    return Success(200, ());
  }

  /** OrderController::getOrder. */
  method GetOrder(db: Db, current: Option<User>, id: int) returns (resp: Response<OrderView>)
    ensures current.None? ==> resp == Failure(401, Unauthorized)
    ensures current.Some? && id !in db.orders ==> resp == Failure(404, OrderNotFound)
    ensures current.Some? && id in db.orders && !MayView(current.value, db.orders[id]) ==>
      resp == Failure(403, AccessDenied)
    ensures resp.Success? <==> current.Some? && id in db.orders && MayView(current.value, db.orders[id])
    ensures resp.Success? ==> resp.data == OrderView(db.orders[id], ItemsOf(db.orderItems, id))
  {
    var access := RequireAuth(current, []);
    if !access.Granted? {
      return Denied(access);
    }
    if id !in db.orders {
      return Failure(404, OrderNotFound);
    }
    var order := db.orders[id];
    if !MayView(access.user, order) {
      return Failure(403, AccessDenied);
    }
    return Success(200, OrderView(order, ItemsOf(db.orderItems, id)));
  }
}

=== FILE: payments.dfy ===
/** PaymentController: opening a gateway checkout for a sale, and settling it
    when the gateway confirms the charge, either on a verification call or on
    a signed webhook. The gateway, the request signature and JSON decoding are
    parameters of the handlers. */
module Payments {
  import opened Core
  import opened Storage

  const PaymentRequired := ["amount", "email", "sale_id"]

  // ---------------------------------------------------------------------------
  // The payment reference

  /** `'ardent_' . time() . '_' . $saleId`. */
  function Reference(now: nat, saleId: Value): string {
    "ardent_" + NatToString(now) + "_" + ToText(saleId)
  }

  /** The reference can be taken apart again: it starts with `ardent_`, its
      digits read back as the time, and it ends with the sale id's text. */
  lemma ReferenceReadsBack(now: nat, saleId: Value)
    ensures var r := Reference(now, saleId);
      && |r| > 7 && r[..7] == "ardent_"
      && ParseDigits(r[7..], 0) == now
      && |r| > |ToText(saleId)| && r[|r| - |ToText(saleId)|..] == ToText(saleId)
  {
    var digits := NatToString(now);
    NatToStringRoundTrip(now);
    ParseDigitsStops(digits, "_" + ToText(saleId), 0);
    assert ("ardent_" + digits + "_" + ToText(saleId))[7..] == digits + ("_" + ToText(saleId));
  }

  /** The length of the run of digits a string starts with. */
  function DigitRun(x: string): (n: nat)
    ensures n <= |x|
    decreases |x|
  {
    if x != [] && IsDigit(x[0]) then 1 + DigitRun(x[1..]) else 0
  }

  lemma {:induction false} DigitRunStopsAtSeparator(a: string, b: string)
    requires AllDigits(a)
    ensures DigitRun(a + "_" + b) == |a|
    decreases |a|
  {
    if a != [] {
      assert (a + "_" + b)[1..] == a[1..] + "_" + b;
      DigitRunStopsAtSeparator(a[1..], b);
    }
  }

  /** A run of digits followed by `_` is recovered from the joined text. */
  lemma SplitAtSeparator(a1: string, b1: string, a2: string, b2: string)
    requires AllDigits(a1) && AllDigits(a2)
    requires a1 + "_" + b1 == a2 + "_" + b2
    ensures a1 == a2 && b1 == b2
  {
    var x := a1 + "_" + b1;
    DigitRunStopsAtSeparator(a1, b1);
    DigitRunStopsAtSeparator(a2, b2);
    assert a1 == x[..|a1|];
    assert a2 == (a2 + "_" + b2)[..|a2|];
    assert b1 == x[|a1| + 1..];
    assert b2 == (a2 + "_" + b2)[|a2| + 1..];
  }

  /** Two references are equal exactly when they were made in the same second
      for sale ids with the same text: two checkouts opened for one sale within
      a second share a reference. */
  lemma ReferenceInjective(now1: nat, now2: nat, sale1: Value, sale2: Value)
    ensures Reference(now1, sale1) == Reference(now2, sale2) <==> now1 == now2 && ToText(sale1) == ToText(sale2)
  {
    var a1, a2 := NatToString(now1), NatToString(now2);
    var b1, b2 := ToText(sale1), ToText(sale2);
    var x1, x2 := a1 + "_" + b1, a2 + "_" + b2;
    assert Reference(now1, sale1) == "ardent_" + x1;
    assert Reference(now2, sale2) == "ardent_" + x2;
    if Reference(now1, sale1) == Reference(now2, sale2) {
      assert x1 == ("ardent_" + x1)[7..];
      assert x2 == ("ardent_" + x2)[7..];
      SplitAtSeparator(a1, b1, a2, b2);
      NatToStringRoundTrip(now1);
      NatToStringRoundTrip(now2);
    }
  }

  // ---------------------------------------------------------------------------
  // initializePayment

  /** The body sent to the gateway's `transaction/initialize` (its callback URL aside). */
  datatype InitRequest = InitRequest(amount: int, email: Value, reference: string, saleId: Value, userId: int)

  /** A decoded gateway answer: whether its `status` is truthy, and its `data`. */
  datatype GatewayReply = GatewayReply(status: bool, data: Value)

  /** What a successful initialization returns to the client. */
  datatype Checkout = Checkout(authorizationUrl: Value, accessCode: Value, reference: string)

  /** The gateway request for an input whose amount is `amount`: the gateway
      is sent the amount times 100 (kobo). */
  function InitRequestOf(input: Request, amount: int, now: nat, userId: int): (q: InitRequest)
    ensures q.amount == 100 * amount
    ensures q.reference == Reference(now, Get(input, "sale_id")) && q.saleId == Get(input, "sale_id")
  {
    InitRequest(amount * 100, Get(input, "email"), Reference(now, Get(input, "sale_id")), Get(input, "sale_id"), userId)
  }

  /** `$response && $response['status']`. */
  predicate Accepted(reply: Option<GatewayReply>) {
    reply.Some? && reply.value.status
  }

  /** PaymentController::initializePayment. `now` is `time()`; `gateway` is the
      call to the payment provider, None when it answers with an error status. */
  method InitializePayment(db: Db, current: Option<User>, input: Request, now: nat,
                           gateway: InitRequest -> Option<GatewayReply>) returns (resp: Response<Checkout>)
    requires db.PaymentsValid()
    modifies db`payments, db`nextPaymentId
    ensures db.PaymentsValid()
    ensures current.None? ==> resp == Failure(401, Unauthorized)
    ensures current.Some? && !AllFilled(input, PaymentRequired) ==> resp == Failure(400, MissingRequiredFields)
    ensures current.Some? && AllFilled(input, PaymentRequired) && Numeric(Get(input, "amount")).None? ==>
      resp == Failure(500, MalformedNumber)
    ensures current.Some? && AllFilled(input, PaymentRequired) && Numeric(Get(input, "amount")).Some? &&
            !Accepted(gateway(InitRequestOf(input, Numeric(Get(input, "amount")).value, now, current.value.id))) ==>
      resp == Failure(500, PaymentInitializationFailed)
    ensures resp.Success? <==>
      current.Some? && AllFilled(input, PaymentRequired) && Numeric(Get(input, "amount")).Some? &&
      Accepted(gateway(InitRequestOf(input, Numeric(Get(input, "amount")).value, now, current.value.id)))
    ensures resp.Failure? ==> db.payments == old(db.payments) && db.nextPaymentId == old(db.nextPaymentId)
    ensures resp.Success? ==>
      && resp.code == 200
      && resp.data.reference == Reference(now, Get(input, "sale_id"))
      && db.nextPaymentId == old(db.nextPaymentId) + 1
      && old(db.nextPaymentId) !in old(db.payments)
      && db.payments == old(db.payments)[old(db.nextPaymentId) :=
           Payment(Get(input, "sale_id"), Reference(now, Get(input, "sale_id")), Get(input, "amount"), Pending, Null, None)]
  {
    var access := RequireAuth(current, []);
    if !access.Granted? {
      return Denied(access);
    }
    var valid := ValidateRequired(input, PaymentRequired);
    if !valid {
      return Failure(400, MissingRequiredFields);
    }
    var amount := Numeric(Get(input, "amount"));
    if amount.None? {
      return Failure(500, MalformedNumber);
    }
    var request := InitRequestOf(input, amount.value, now, access.user.id);
    var reply := gateway(request);
    if !Accepted(reply) {
      return Failure(500, PaymentInitializationFailed);
    }
    var id := db.nextPaymentId;
    db.payments := db.payments[id := Payment(request.saleId, request.reference, Get(input, "amount"), Pending, Null, None)];
    db.nextPaymentId := id + 1;
    var data := reply.value.data;
    return Success(200, Checkout(Field(data, "authorization_url"), Field(data, "access_code"), request.reference));
  }

  // ---------------------------------------------------------------------------
  // Settlement, shared by verifyPayment and webhook

  /** `WHERE reference = ?` with the value bound: null matches no row. */
  predicate Refers(p: Payment, reference: Value) {
    reference != Null && p.reference == ToText(reference)
  }

  /** The payments a reference selects. */
  function Matching(payments: map<int, Payment>, reference: Value): (ids: set<int>)
    ensures forall id :: id in ids <==> id in payments && Refers(payments[id], reference)
  {
    set id | id in payments && Refers(payments[id], reference)
  }

  /** `UPDATE payments SET status = 'completed', gateway_reference = ?,
      verified_at = NOW() WHERE reference = ?`. */
  function CompleteAll(payments: map<int, Payment>, reference: Value, gatewayRef: Value, now: int): (r: map<int, Payment>)
    ensures r.Keys == payments.Keys
    ensures forall id :: id in payments && !Refers(payments[id], reference) ==> r[id] == payments[id]
    ensures forall id :: id in payments && Refers(payments[id], reference) ==>
      r[id] == payments[id].(status := Completed, gatewayRef := gatewayRef, verifiedAt := Some(now))
  {
    map id | id in payments ::
      if Refers(payments[id], reference)
      then payments[id].(status := Completed, gatewayRef := gatewayRef, verifiedAt := Some(now))
      else payments[id]
  }

  /** The sale a stored `sale_id` names in `WHERE id = …`. */
  function SaleKey(v: Value): Option<int> {
    if v.Int? then Some(v.i)
    else if v.Str? && v.s != [] && AllDigits(v.s) then Some(StrToInt(v.s))
    else None
  }

  /** Whether sale `s` is the one a payment with this reference belongs to. */
  predicate PaidBy(payments: map<int, Payment>, reference: Value, s: int) {
    exists id :: id in payments && Refers(payments[id], reference) && SaleKey(payments[id].saleId) == Some(s)
  }

  /** `UPDATE sales SET payment_status = 'paid', payment_method = 'card'
      WHERE id = (SELECT sale_id FROM payments WHERE reference = ?)`, when the
      subquery yields at most one row. */
  function MarkPaid(sales: map<int, Sale>, payments: map<int, Payment>, reference: Value): (r: map<int, Sale>)
    ensures r.Keys == sales.Keys
    ensures forall s :: s in sales && !PaidBy(payments, reference, s) ==> r[s] == sales[s]
    ensures forall s :: s in sales && PaidBy(payments, reference, s) ==>
      r[s] == sales[s].(paymentStatus := Str("paid"), paymentMethod := Str("card"))
  {
    map s | s in sales ::
      if PaidBy(payments, reference, s)
      then sales[s].(paymentStatus := Str("paid"), paymentMethod := Str("card"))
      else sales[s]
  }

  /** Completes every payment with the reference, then marks its sale paid.
      With several payments under one reference the subquery fails after the
      payments were already written: there is no transaction around the two
      statements. */
  method Settle(db: Db, reference: Value, gatewayRef: Value, now: int) returns (err: Option<Error>)
    requires db.PaymentsValid() && db.SalesValid()
    modifies db`payments, db`sales
    ensures db.PaymentsValid() && db.SalesValid()
    ensures db.payments == CompleteAll(old(db.payments), reference, gatewayRef, now)
    ensures err.Some? <==> |Matching(old(db.payments), reference)| > 1
    ensures err.Some? ==> err.value == SubqueryReturnedManyRows && db.sales == old(db.sales)
    ensures err.None? ==> db.sales == MarkPaid(old(db.sales), old(db.payments), reference)
  {
    var before := db.payments;
    db.payments := CompleteAll(before, reference, gatewayRef, now);
    if |Matching(before, reference)| > 1 {
      return Some(SubqueryReturnedManyRows);
    }
    db.sales := MarkPaid(db.sales, before, reference);
    return None;
  }

  /** Settling keeps the rows the reference does not select, whatever their status. */
  lemma SettleLeavesOthers(payments: map<int, Payment>, sales: map<int, Sale>, reference: Value, gatewayRef: Value, now: int,
                           id: int, s: int)
    requires id in payments && !Refers(payments[id], reference)
    requires s in sales && !PaidBy(payments, reference, s)
    ensures CompleteAll(payments, reference, gatewayRef, now)[id] == payments[id]
    ensures MarkPaid(sales, payments, reference)[s] == sales[s]
  {
  }

  /** Completing the payments of a reference selects the same payments as before. */
  lemma CompleteAllKeepsMatching(payments: map<int, Payment>, reference: Value, gatewayRef: Value, now: int)
    ensures Matching(CompleteAll(payments, reference, gatewayRef, now), reference) == Matching(payments, reference)
  {
    var p1 := CompleteAll(payments, reference, gatewayRef, now);
    assert forall id :: id in p1 ==> p1[id].reference == payments[id].reference;
  }

  /** Completing the payments of a reference keeps the sale each one is for. */
  lemma CompleteAllKeepsSales(payments: map<int, Payment>, reference: Value, gatewayRef: Value, now: int, s: int)
    ensures PaidBy(CompleteAll(payments, reference, gatewayRef, now), reference, s) <==> PaidBy(payments, reference, s)
  {
    var p1 := CompleteAll(payments, reference, gatewayRef, now);
    if PaidBy(payments, reference, s) {
      var id :| id in payments && Refers(payments[id], reference) && SaleKey(payments[id].saleId) == Some(s);
      assert p1[id].saleId == payments[id].saleId && p1[id].reference == payments[id].reference;
    }
    if PaidBy(p1, reference, s) {
      var id :| id in p1 && Refers(p1[id], reference) && SaleKey(p1[id].saleId) == Some(s);
      assert p1[id].saleId == payments[id].saleId && p1[id].reference == payments[id].reference;
    }
  }

  /** A second completion of the same reference with the same data changes nothing. */
  lemma CompleteAllTwice(payments: map<int, Payment>, reference: Value, gatewayRef: Value, now: int)
    ensures var p1 := CompleteAll(payments, reference, gatewayRef, now);
      CompleteAll(p1, reference, gatewayRef, now) == p1
  {
    var p1 := CompleteAll(payments, reference, gatewayRef, now);
    var p2 := CompleteAll(p1, reference, gatewayRef, now);
    forall id | id in p1 ensures p2[id] == p1[id] {
      assert p1[id].reference == payments[id].reference;
    }
  }

  /** Settling the same notification twice leaves the state of settling it
      once: the second pass changes no payment and no sale. */
  lemma SettleTwiceSameState(payments: map<int, Payment>, sales: map<int, Sale>, reference: Value, gatewayRef: Value, now: int)
    ensures var p1 := CompleteAll(payments, reference, gatewayRef, now);
      && CompleteAll(p1, reference, gatewayRef, now) == p1
      && Matching(p1, reference) == Matching(payments, reference)
      && MarkPaid(MarkPaid(sales, payments, reference), p1, reference) == MarkPaid(sales, payments, reference)
  {
    var p1 := CompleteAll(payments, reference, gatewayRef, now);
    var s1 := MarkPaid(sales, payments, reference);
    CompleteAllTwice(payments, reference, gatewayRef, now);
    CompleteAllKeepsMatching(payments, reference, gatewayRef, now);
    forall s | s in s1 ensures MarkPaid(s1, p1, reference)[s] == s1[s] {
      CompleteAllKeepsSales(payments, reference, gatewayRef, now, s);
    }
  }

  /** Settlement is not gated on the payment still being pending: a payment
      already completed is completed again, with the new gateway id and time. */
  lemma CompletedPaymentIsRestamped(p: Payment, reference: Value, gatewayRef: Value, now: int)
    requires p.status == Completed && Refers(p, reference)
    ensures var r := CompleteAll(map[1 := p], reference, gatewayRef, now)[1];
      r.status == Completed && r.verifiedAt == Some(now) && r.gatewayRef == gatewayRef
  {
  }

  // ---------------------------------------------------------------------------
  // verifyPayment

  /** What a successful verification returns: the amount in naira and the reference. */
  datatype Verified = Verified(amount: real, reference: string)

  /** `$paymentData['amount'] / 100`: the gateway reports kobo, the answer is
      naira. None where PHP's division would throw (a list, an object or a
      non-numeric string). */
  function Naira(amount: Value): (r: Option<real>)
    ensures r.Some? <==> Numeric(amount).Some?
    ensures r.Some? ==> r.value * 100.0 == Numeric(amount).value as real
    ensures amount == Null ==> r == Some(0.0)
  {
    match Numeric(amount)
    case None => None
    case Some(kobo) => Some(kobo as real / 100.0)
  }

  /** `$response && $response['status'] && $response['data']['status'] === 'success'`. */
  predicate Succeeded(reply: Option<GatewayReply>) {
    Accepted(reply) && Field(reply.value.data, "status") == Str("success")
  }

  /** PaymentController::verifyPayment. `reference` is the query parameter;
      `verify` is the gateway's `transaction/verify/<reference>` call. */
  method VerifyPayment(db: Db, current: Option<User>, reference: Option<string>, now: int,
                       verify: string -> Option<GatewayReply>) returns (resp: Response<Verified>)
    requires db.PaymentsValid() && db.SalesValid()
    modifies db`payments, db`sales
    ensures db.PaymentsValid() && db.SalesValid()
    ensures current.None? ==> resp == Failure(401, Unauthorized)
    ensures current.Some? && (reference.None? || IsEmpty(Str(reference.value))) ==>
      resp == Failure(400, ReferenceRequired)
    ensures current.Some? && reference.Some? && !IsEmpty(Str(reference.value)) && !Succeeded(verify(reference.value)) ==>
      resp == Failure(400, VerificationFailed)
    ensures !(current.Some? && reference.Some? && !IsEmpty(Str(reference.value)) && Succeeded(verify(reference.value))) ==>
      db.payments == old(db.payments) && db.sales == old(db.sales)
    ensures current.Some? && reference.Some? && !IsEmpty(Str(reference.value)) && Succeeded(verify(reference.value)) ==>
      var data := verify(reference.value).value.data;
      var ref := Str(reference.value);
      && db.payments == CompleteAll(old(db.payments), ref, Field(data, "id"), now)
      && (|Matching(old(db.payments), ref)| > 1 ==>
            resp == Failure(500, SubqueryReturnedManyRows) && db.sales == old(db.sales))
      && (|Matching(old(db.payments), ref)| <= 1 ==>
            db.sales == MarkPaid(old(db.sales), old(db.payments), ref))
      && (|Matching(old(db.payments), ref)| <= 1 && Naira(Field(data, "amount")).None? ==>
            resp == Failure(500, MalformedNumber))
      && (|Matching(old(db.payments), ref)| <= 1 && Naira(Field(data, "amount")).Some? ==>
            resp == Success(200, Verified(Naira(Field(data, "amount")).value, reference.value)))
  {
    var access := RequireAuth(current, []);
    if !access.Granted? {
      return Denied(access);
    }
    var ref := if reference.Some? then reference.value else "";
    if IsEmpty(Str(ref)) {
      return Failure(400, ReferenceRequired);
    }
    var reply := verify(ref);
    if !Succeeded(reply) {
      return Failure(400, VerificationFailed);
    }
    var data := reply.value.data;
    var err := Settle(db, Str(ref), Field(data, "id"), now);
    if err.Some? {
      return Failure(500, err.value);
    }
    // The division comes after both updates, which are not rolled back.
    var amount := Naira(Field(data, "amount"));
    if amount.None? {
      return Failure(500, MalformedNumber);
    }
    return Success(200, Verified(amount.value, ref));
  }

  // ---------------------------------------------------------------------------
  // webhook

  /** `hash_equals($signature, hash_hmac('sha512', $payload, $secret))`, with the
      keyed hash `sign` a parameter. */
  predicate SignatureValid(payload: string, signature: string, secret: string, sign: (string, string) -> string) {
    signature == sign(secret, payload)
  }

  /** PaymentController::webhook. `signature` is the `X-Paystack-Signature`
      header, `decode` is `json_decode($payload, true)`. */
  method Webhook(db: Db, payload: string, signature: Option<string>, secret: string,
                 sign: (string, string) -> string, decode: string -> Value, now: int) returns (resp: Response<()>)
    requires db.PaymentsValid() && db.SalesValid()
    modifies db`payments, db`sales
    ensures db.PaymentsValid() && db.SalesValid()
    ensures !SignatureValid(payload, if signature.Some? then signature.value else "", secret, sign) ==>
      resp == Failure(400, InvalidSignature)
    ensures !SignatureValid(payload, if signature.Some? then signature.value else "", secret, sign) ||
            Field(decode(payload), "event") != Str("charge.success") ==>
      db.payments == old(db.payments) && db.sales == old(db.sales)
    ensures SignatureValid(payload, if signature.Some? then signature.value else "", secret, sign) &&
            Field(decode(payload), "event") != Str("charge.success") ==>
      resp == Success(200, ())
    ensures SignatureValid(payload, if signature.Some? then signature.value else "", secret, sign) &&
            Field(decode(payload), "event") == Str("charge.success") ==>
      var data := Field(decode(payload), "data");
      var ref := Field(data, "reference");
      && db.payments == CompleteAll(old(db.payments), ref, Field(data, "id"), now)
      && (|Matching(old(db.payments), ref)| > 1 ==>
            resp == Failure(500, SubqueryReturnedManyRows) && db.sales == old(db.sales))
      && (|Matching(old(db.payments), ref)| <= 1 ==>
            resp == Success(200, ()) && db.sales == MarkPaid(old(db.sales), old(db.payments), ref))
  {
    var header := if signature.Some? then signature.value else "";
    if !SignatureValid(payload, header, secret, sign) {
      return Failure(400, InvalidSignature);
    }
    var event := decode(payload);
    if Field(event, "event") == Str("charge.success") {
      var data := Field(event, "data");
      var err := Settle(db, Field(data, "reference"), Field(data, "id"), now);
      if err.Some? {
        return Failure(500, err.value);
      }
    }
    return Success(200, ());
  }
}

=== FILE: products.dfy ===
/** ProductController: creating a product together with its stock row,
    updating its whitelisted fields, and soft-deleting it. SKUs and barcodes
    are unique keys of the products table. */
module Products {
  import opened Core
  import opened Storage

  const ProductRoles := ["admin", "manager"]
  const ProductRequired := ["name", "price", "category_id"]
  const ProductFields := ["name", "description", "sku", "barcode", "category_id", "price", "cost_price", "tax_rate", "image_url"]

  /** Whether a row other than `except` already has the SKU or the barcode of `attrs`. */
  predicate CodeTaken(products: map<int, Product>, attrs: map<string, Value>, except: Option<int>) {
    exists id :: id in products && except != Some(id) &&
      (SameText(Attr(products[id].attrs, "sku"), Attr(attrs, "sku")) ||
       SameText(Attr(products[id].attrs, "barcode"), Attr(attrs, "barcode")))
  }

  /** The row `store` inserts, with the price as the number it was given. */
  function NewProduct(data: Request, price: int): (p: Product)
    ensures p.active && Priced(p) && Price(p) == price
    ensures Attr(p.attrs, "tax_rate") == (if IsSet(data, "tax_rate") then data["tax_rate"] else Int(0))
    ensures Attr(p.attrs, "sku") == Get(data, "sku") && Attr(p.attrs, "barcode") == Get(data, "barcode")
  {
    Product(map["name" := Get(data, "name"), "description" := Coalesce(data, "description", Null),
                "sku" := Coalesce(data, "sku", Null), "barcode" := Coalesce(data, "barcode", Null),
                "category_id" := Get(data, "category_id"), "price" := Int(price),
                "cost_price" := Coalesce(data, "cost_price", Null), "tax_rate" := Coalesce(data, "tax_rate", Int(0)),
                "image_url" := Coalesce(data, "image_url", Null)], true)
  }

  /** The stock row created with a product: `initial_quantity` (default 0) and
      `low_stock_threshold` (default 10), when both are numbers. */
  function InitialStock(data: Request): (r: Option<StockRecord>)
    ensures !IsSet(data, "initial_quantity") && !IsSet(data, "low_stock_threshold") ==>
      r == Some(StockRecord(0, 10, None))
    ensures r.Some? ==> (r.value.lastRestocked == None &&
      Some(r.value.quantity) == Numeric(Coalesce(data, "initial_quantity", Int(0))) &&
      Some(r.value.threshold) == Numeric(Coalesce(data, "low_stock_threshold", Int(10))))
    ensures r.None? <==>
      Numeric(Coalesce(data, "initial_quantity", Int(0))).None? || Numeric(Coalesce(data, "low_stock_threshold", Int(10))).None?
  {
    var q := Numeric(Coalesce(data, "initial_quantity", Int(0)));
    var t := Numeric(Coalesce(data, "low_stock_threshold", Int(10)));
    if q.Some? && t.Some? then Some(StockRecord(q.value, t.value, None)) else None
  }

  /** A zero price counts as empty, so a free product cannot be created. */
  lemma ZeroPriceRejected(data: Request)
    requires "price" in data && (data["price"] == Int(0) || data["price"] == Str("0"))
    ensures !AllFilled(data, ProductRequired)
  {
    assert !Filled(data, ProductRequired[1]);
  }

  /** Writing a row keeps SKUs and barcodes unique when no other row has its codes. */
  lemma UniqueCodesSet(products: map<int, Product>, id: int, p: Product)
    requires UniqueCodes(products)
    requires !CodeTaken(products, p.attrs, Some(id))
    ensures UniqueCodes(products[id := p])
  {
    var after := products[id := p];
    forall i, j | i in after && j in after && i != j
      ensures !SameText(Attr(after[i].attrs, "sku"), Attr(after[j].attrs, "sku"))
      ensures !SameText(Attr(after[i].attrs, "barcode"), Attr(after[j].attrs, "barcode"))
    {
      if i == id {
        assert after[j] == products[j];
      } else if j == id {
        assert after[i] == products[i];
      }
    }
  }

  /** A row of a table with unique codes clashes with no other row. */
  lemma UniqueCodesNoClash(products: map<int, Product>, id: int)
    requires UniqueCodes(products) && id in products
    ensures !CodeTaken(products, products[id].attrs, Some(id))
  {
  }

  /** Inserts the product and its stock row; the ghost opening stock of the
      product becomes its initial quantity less any change already logged. */
  method InsertProduct(db: Db, id: int, p: Product, stock: StockRecord)
    requires db.ProductsValid() && db.StockValid()
    requires id == db.nextProductId - 1 && id !in db.products
    requires Priced(p) && !CodeTaken(db.products, p.attrs, None)
    modifies db`products, db`inventory, db`baseline
    ensures db.ProductsValid() && db.StockValid()
    ensures db.products == old(db.products)[id := p]
    ensures db.inventory == old(db.inventory)[id := stock]
  {
    UniqueCodesSet(db.products, id, p);
    assert id !in db.inventory;
    db.products := db.products[id := p];
    db.baseline := db.baseline[id := stock.quantity - NetChange(db.movements, id)];
    db.inventory := db.inventory[id := stock];
  }

  /** ProductController::store; answers the new product's id. A duplicate key
      and a bad stock figure fail after the id was drawn from its sequence,
      which the rollback does not give back. */
  method Store(db: Db, current: Option<User>, data: Request) returns (resp: Response<int>)
    requires db.ProductsValid() && db.StockValid()
    modifies db`products, db`inventory, db`nextProductId, db`baseline
    ensures db.ProductsValid() && db.StockValid()
    ensures !RequireAuth(current, ProductRoles).Granted? ==> resp == Denied(RequireAuth(current, ProductRoles))
    ensures RequireAuth(current, ProductRoles).Granted? && !AllFilled(data, ProductRequired) ==>
      resp == Failure(400, MissingRequiredFields)
    ensures RequireAuth(current, ProductRoles).Granted? && AllFilled(data, ProductRequired) &&
            Numeric(Get(data, "price")).None? ==>
      resp == Failure(500, ProductCreateFailed) && db.nextProductId == old(db.nextProductId)
    ensures RequireAuth(current, ProductRoles).Granted? && AllFilled(data, ProductRequired) &&
            Numeric(Get(data, "price")).Some? ==>
      db.nextProductId == old(db.nextProductId) + 1 &&
      (CodeTaken(old(db.products), NewProduct(data, Numeric(Get(data, "price")).value).attrs, None) ==>
         resp == Failure(409, DuplicateSkuOrBarcode))
    ensures resp.Success? <==>
      RequireAuth(current, ProductRoles).Granted? && AllFilled(data, ProductRequired) &&
      Numeric(Get(data, "price")).Some? &&
      !CodeTaken(old(db.products), NewProduct(data, Numeric(Get(data, "price")).value).attrs, None) &&
      InitialStock(data).Some?
    ensures RequireAuth(current, ProductRoles).Granted? && AllFilled(data, ProductRequired) &&
            Numeric(Get(data, "price")).Some? &&
            !CodeTaken(old(db.products), NewProduct(data, Numeric(Get(data, "price")).value).attrs, None) &&
            InitialStock(data).None? ==>
      resp == Failure(500, ProductCreateFailed)
    ensures resp.Failure? ==> db.products == old(db.products) && db.inventory == old(db.inventory)
    ensures resp.Success? ==>
      && resp == Success(201, old(db.nextProductId))
      && old(db.nextProductId) !in old(db.products)
      && db.products == old(db.products)[old(db.nextProductId) := NewProduct(data, Numeric(Get(data, "price")).value)]
      && db.inventory == old(db.inventory)[old(db.nextProductId) := InitialStock(data).value]
  {
    var access := RequireAuth(current, ProductRoles);
    if !access.Granted? {
      return Denied(access);
    }
    var valid := ValidateRequired(data, ProductRequired);
    if !valid {
      return Failure(400, MissingRequiredFields);
    }
    var price := Numeric(Get(data, "price"));
    if price.None? {
      return Failure(500, ProductCreateFailed);
    }
    var id := db.nextProductId;
    db.nextProductId := id + 1;
    var p := NewProduct(data, price.value);
    if CodeTaken(db.products, p.attrs, None) {
      return Failure(409, DuplicateSkuOrBarcode);
    }
    var stock := InitialStock(data);
    if stock.None? {
      return Failure(500, ProductCreateFailed);
    }
    InsertProduct(db, id, p, stock.value);
    return Success(201, id);
  }

  /** The fields an update writes: the whitelisted ones the request sets, with
      a numeric price stored as its number; None when the price is not a number. */
  function ProductChanges(data: Request): (c: Option<map<string, Value>>)
    ensures c.None? <==> IsSet(data, "price") && Numeric(data["price"]).None?
    ensures c.Some? ==> c.value.Keys == Picked(data, ProductFields).Keys
    ensures c.Some? ==> forall f :: f in c.value && f != "price" ==> c.value[f] == data[f]
    ensures c.Some? && "price" in c.value ==> c.value["price"] == Int(Numeric(data["price"]).value)
  {
    var picked := Picked(data, ProductFields);
    if "price" in picked then
      var n := Numeric(picked["price"]);
      if n.None? then None else Some(picked["price" := Int(n.value)])
    else Some(picked)
  }

  /** ProductController::update for product `id`. */
  method Update(db: Db, current: Option<User>, id: int, data: Request) returns (resp: Response<()>)
    requires db.ProductsValid()
    modifies db`products
    ensures db.ProductsValid()
    ensures !RequireAuth(current, ProductRoles).Granted? ==> resp == Denied(RequireAuth(current, ProductRoles))
    ensures RequireAuth(current, ProductRoles).Granted? && !(id in old(db.products) && old(db.products)[id].active) ==>
      resp == Failure(404, ProductMissing)
    ensures RequireAuth(current, ProductRoles).Granted? && id in old(db.products) && old(db.products)[id].active &&
            Picked(data, ProductFields) == map[] ==>
      resp == Failure(400, NoFieldsToUpdate)
    ensures RequireAuth(current, ProductRoles).Granted? && id in old(db.products) && old(db.products)[id].active &&
            Picked(data, ProductFields) != map[] && ProductChanges(data).None? ==>
      resp == Failure(500, ProductUpdateFailed)
    ensures RequireAuth(current, ProductRoles).Granted? && id in old(db.products) && old(db.products)[id].active &&
            Picked(data, ProductFields) != map[] && ProductChanges(data).Some? &&
            CodeTaken(old(db.products), old(db.products)[id].attrs + ProductChanges(data).value, Some(id)) ==>
      resp == Failure(409, DuplicateSkuOrBarcode)
    ensures resp.Success? <==>
      RequireAuth(current, ProductRoles).Granted? && id in old(db.products) && old(db.products)[id].active &&
      Picked(data, ProductFields) != map[] && ProductChanges(data).Some? &&
      !CodeTaken(old(db.products), old(db.products)[id].attrs + ProductChanges(data).value, Some(id))
    ensures resp.Failure? ==> db.products == old(db.products)
    ensures resp.Success? ==> (resp == Success(200, ()) && id in old(db.products) && ProductChanges(data).Some? &&
      db.products == old(db.products)[id := old(db.products)[id].(attrs := old(db.products)[id].attrs + ProductChanges(data).value)])
  {
    var access := RequireAuth(current, ProductRoles);
    if !access.Granted? {
      return Denied(access);
    }
    if !(id in db.products && db.products[id].active) {
      return Failure(404, ProductMissing);
    }
    var picked := PickFields(data, ProductFields);
    if picked == map[] {
      return Failure(400, NoFieldsToUpdate);
    }
    var changes := ProductChanges(data);
    if changes.None? {
      return Failure(500, ProductUpdateFailed);
    }
    var row := db.products[id].(attrs := db.products[id].attrs + changes.value);
    if CodeTaken(db.products, row.attrs, Some(id)) {
      return Failure(409, DuplicateSkuOrBarcode);
    }
    assert Priced(row) by {
      assert Priced(db.products[id]);
    }
    UniqueCodesSet(db.products, id, row);
    db.products := db.products[id := row];
    return Success(200, ());
  }

  /** ProductController::destroy: a soft delete of an active product; the row,
      its stock and its codes stay. */
  method Destroy(db: Db, current: Option<User>, id: int) returns (resp: Response<()>)
    requires db.ProductsValid()
    modifies db`products
    ensures db.ProductsValid()
    ensures !RequireAuth(current, ProductRoles).Granted? ==> resp == Denied(RequireAuth(current, ProductRoles))
    ensures resp.Success? <==>
      RequireAuth(current, ProductRoles).Granted? && id in old(db.products) && old(db.products)[id].active
    ensures RequireAuth(current, ProductRoles).Granted? && !resp.Success? ==> resp == Failure(404, ProductMissing)
    ensures resp.Failure? ==> db.products == old(db.products)
    ensures resp.Success? ==> (resp == Success(200, ()) && id in old(db.products) &&
      db.products == old(db.products)[id := old(db.products)[id].(active := false)])
  {
    var access := RequireAuth(current, ProductRoles);
    if !access.Granted? {
      return Denied(access);
    }
    if !(id in db.products && db.products[id].active) {
      return Failure(404, ProductMissing);
    }
    var row := db.products[id].(active := false);
    UniqueCodesNoClash(db.products, id);
    UniqueCodesSet(db.products, id, row);
    db.products := db.products[id := row];
    return Success(200, ());
  }

  /** A deleted product keeps its SKU: a new product with that SKU is still a
      duplicate key. */
  lemma DeletedSkuStillTaken(products: map<int, Product>, id: int, attrs: map<string, Value>)
    requires id in products && SameText(Attr(products[id].attrs, "sku"), Attr(attrs, "sku"))
    ensures CodeTaken(products[id := products[id].(active := false)], attrs, None)
  {
    assert products[id := products[id].(active := false)][id].attrs == products[id].attrs;
  }
}

=== FILE: sales.dfy ===
/** SalesController::store: pricing the requested lines against the catalogue
    and the stock, then recording the sale and its lines in one transaction. */
module Sales {
  import opened Core
  import opened Storage

  const SaleRoles := ["admin", "manager", "cashier"]
  const SaleRequired := ["items", "payment_method"]

  /** One entry of `$validatedItems`. */
  datatype Line = Line(productId: int, quantity: int, unitPrice: int, lineTotal: int)

  /** What a recorded sale answers with. */
  datatype Receipt = Receipt(id: int, saleNumber: string, totalAmount: int)

  /** The sale row and its lines, once every item is priced. */
  datatype Plan = Plan(sale: Sale, lines: seq<Line>)

  /** `foreach ($data['items'] as $item)`: a value that is not a list yields no items. */
  function Items(data: Request): seq<Value> {
    if "items" in data && data["items"].Arr? then data["items"].elems else []
  }

  /** `$quantity <= 0` under PHP 8's comparison: a value read as a number is
      compared as one; a string that is not a number is compared with "0" as
      text, which holds for the empty string and for every string starting
      below '0' (a sign, a space, a dot); a list is never `<= 0`. */
  predicate NotPositive(q: Value) {
    if Numeric(q).Some? then Numeric(q).value <= 0
    else q.Str? && (q.s == [] || q.s[0] < '0')
  }

  /** The item guard: `product_id` and `quantity` set, and the quantity not `<= 0`. */
  predicate WellFormedItem(item: Value) {
    && Field(item, "product_id") != Null
    && Field(item, "quantity") != Null
    && !NotPositive(Field(item, "quantity"))
  }

  /** The active product a value names, as the product query finds it: the
      bound parameter is read as an integer id. */
  function Lookup(products: map<int, Product>, id: Value): Option<Product> {
    var key := Numeric(id);
    if key.Some? && key.value in products && products[key.value].active then Some(products[key.value]) else None
  }

  function ProductName(p: Product): Value {
    if "name" in p.attrs then p.attrs["name"] else Null
  }

  /** One pass of the pricing loop. */
  function PriceItem(products: map<int, Product>, inventory: map<int, StockRecord>, item: Value): (r: Result<Line>)
    ensures !WellFormedItem(item) ==> r == Err(InvalidItemData)
    ensures WellFormedItem(item) && Lookup(products, Field(item, "product_id")).None? ==>
      r == Err(ProductNotFound(Field(item, "product_id")))
    ensures WellFormedItem(item) && Lookup(products, Field(item, "product_id")).Some? &&
            Numeric(Field(item, "quantity")).Some? ==>
      var pid := Numeric(Field(item, "product_id")).value;
      (pid !in inventory || inventory[pid].quantity < Numeric(Field(item, "quantity")).value) ==>
        r == Err(InsufficientStock(ProductName(products[pid])))
    ensures Numeric(Field(item, "quantity")).None? ==> r.Err?
    ensures Field(item, "unit_price") != Null && Numeric(Field(item, "unit_price")).None? ==> r.Err?
    ensures r.Ok? ==>
      var l := r.value;
      && Numeric(Field(item, "product_id")) == Some(l.productId)
      && Numeric(Field(item, "quantity")) == Some(l.quantity)
      && l.quantity > 0
      && l.productId in products && products[l.productId].active
      && l.productId in inventory && inventory[l.productId].quantity >= l.quantity
      && (Field(item, "unit_price") == Null ==> l.unitPrice == Price(products[l.productId]))
      && (Field(item, "unit_price") != Null ==> Numeric(Field(item, "unit_price")) == Some(l.unitPrice))
      && l.lineTotal == l.unitPrice * l.quantity
  {
    if !WellFormedItem(item) then Err(InvalidItemData)
    else
      var id := Field(item, "product_id");
      match Lookup(products, id)
      case None => Err(ProductNotFound(id))
      case Some(p) =>
        var pid := Numeric(id).value;
        var q := Numeric(Field(item, "quantity"));
        if q.None? then Err(MalformedNumber)
        else if pid !in inventory || inventory[pid].quantity < q.value then Err(InsufficientStock(ProductName(p)))
        else
          var given := Field(item, "unit_price");
          if given == Null then Ok(Line(pid, q.value, Price(p), Price(p) * q.value))
          else if Numeric(given).Some? then Ok(Line(pid, q.value, Numeric(given).value, Numeric(given).value * q.value))
          else Err(MalformedNumber)
  }

  /** An empty quantity, or one starting with a sign or a space, fails the
      guard before the product is looked up, whatever follows. */
  lemma TextQuantityBelowZeroInvalid(products: map<int, Product>, inventory: map<int, StockRecord>, item: Value)
    requires item.Obj? && "quantity" in item.fields && item.fields["quantity"].Str?
    requires var s := item.fields["quantity"].s; s == [] || s[0] == '-' || s[0] == ' '
    ensures PriceItem(products, inventory, item) == Err(InvalidItemData)
  {
    var s := item.fields["quantity"].s;
    assert s != [] ==> !IsDigit(s[0]);
  }

  /** The pricing loop over a list of items: the first failing item decides. */
  function PriceAll(products: map<int, Product>, inventory: map<int, StockRecord>, items: seq<Value>): (r: Result<seq<Line>>)
    ensures r.Ok? ==> |r.value| == |items|
    decreases |items|
  {
    if items == [] then Ok([])
    else
      match PriceAll(products, inventory, items[..|items| - 1])
      case Err(e) => Err(e)
      case Ok(lines) =>
        match PriceItem(products, inventory, items[|items| - 1])
        case Err(e) => Err(e)
        case Ok(l) => Ok(lines + [l])
  }

  /** The sum of the line totals. */
  function Subtotal(lines: seq<Line>): int
    decreases |lines|
  {
    if lines == [] then 0 else Subtotal(lines[..|lines| - 1]) + lines[|lines| - 1].lineTotal
  }

  /** `$data[$f] ?? 0` as an integer amount; None when it is not a number. */
  function Amount(data: Request, f: string): Option<int> {
    Numeric(Coalesce(data, f, Int(0)))
  }

  /** `'SALE-' . date('Ymd') . '-' . str_pad(rand(1, 9999), 4, '0', STR_PAD_LEFT)`. */
  function SaleNumber(day: string, draw: int): string
    requires 1 <= draw <= 9999
  {
    "SALE-" + day + "-" + DrawText(draw)
  }

  /** The status code of a failed sale: thrown exceptions answer 400; a
      non-numeric operand in the arithmetic is a fatal error, 500. */
  function ErrorCode(e: Error): int {
    if e == MalformedNumber then 500 else 400
  }

  /** Everything `store` computes before it writes: the priced lines, the
      amounts and the sale row. */
  function PlanSale(products: map<int, Product>, inventory: map<int, StockRecord>, data: Request,
                    cashier: int, number: string): (r: Result<Plan>)
    ensures r.Ok? <==>
      PriceAll(products, inventory, Items(data)).Ok? &&
      Amount(data, "tax_amount").Some? && Amount(data, "discount_amount").Some?
    ensures PriceAll(products, inventory, Items(data)).Err? ==>
      r == Err(PriceAll(products, inventory, Items(data)).error)
    ensures r.Err? && PriceAll(products, inventory, Items(data)).Ok? ==> r == Err(MalformedNumber)
    ensures r.Ok? ==>
      var s := r.value.sale;
      && r.value.lines == PriceAll(products, inventory, Items(data)).value
      && s.subtotal == Subtotal(r.value.lines)
      && s.total == s.subtotal + s.tax - s.discount
      && (!IsSet(data, "tax_amount") ==> s.tax == 0)
      && (!IsSet(data, "discount_amount") ==> s.discount == 0)
      && (IsSet(data, "tax_amount") ==> Numeric(data["tax_amount"]) == Some(s.tax))
      && (IsSet(data, "discount_amount") ==> Numeric(data["discount_amount"]) == Some(s.discount))
      && s.customerId == Coalesce(data, "customer_id", Null)
      && s.paymentMethod == Get(data, "payment_method")
      && s.notes == Coalesce(data, "notes", Null)
      && s.number == number && s.cashierId == cashier
      && s.paymentStatus == Coalesce(data, "payment_status", Str("paid"))
  {
    match PriceAll(products, inventory, Items(data))
    case Err(e) => Err(e)
    case Ok(lines) =>
      var tax := Amount(data, "tax_amount");
      var discount := Amount(data, "discount_amount");
      if tax.None? || discount.None? then Err(MalformedNumber)
      else
        var subtotal := Subtotal(lines);
        var payment := if "payment_method" in data then data["payment_method"] else Null;
        Ok(Plan(Sale(number, Coalesce(data, "customer_id", Null), cashier, subtotal, tax.value,
                     discount.value, subtotal + tax.value - discount.value, payment,
                     Coalesce(data, "payment_status", Str("paid")), Coalesce(data, "notes", Null)),
                lines))
  }

  function SaleItemOf(saleId: int, l: Line): SaleItem {
    SaleItem(saleId, l.productId, l.quantity, l.unitPrice, l.lineTotal)
  }

  /** The `sale_items` rows of a sale, in line order. */
  function SaleItems(saleId: int, lines: seq<Line>): (rows: seq<SaleItem>)
    ensures |rows| == |lines|
    ensures forall k :: 0 <= k < |lines| ==> rows[k] == SaleItemOf(saleId, lines[k])
    decreases |lines|
  {
    if lines == [] then [] else SaleItems(saleId, lines[..|lines| - 1]) + [SaleItemOf(saleId, lines[|lines| - 1])]
  }

  // ---------------------------------------------------------------------------
  // Properties of pricing

  /** The list prices iff every item prices, and then line k is item k's line. */
  lemma {:induction false} PriceAllSucceeds(products: map<int, Product>, inventory: map<int, StockRecord>, items: seq<Value>)
    ensures PriceAll(products, inventory, items).Ok? <==>
      forall k :: 0 <= k < |items| ==> PriceItem(products, inventory, items[k]).Ok?
    ensures PriceAll(products, inventory, items).Ok? ==>
      var lines := PriceAll(products, inventory, items).value;
      |lines| == |items| &&
      forall k :: 0 <= k < |items| ==> lines[k] == PriceItem(products, inventory, items[k]).value
    decreases |items|
  {
    if items != [] {
      var init := items[..|items| - 1];
      PriceAllSucceeds(products, inventory, init);
      assert forall k :: 0 <= k < |init| ==> init[k] == items[k];
    }
  }

  /** The first item that fails decides the error of the whole sale. */
  lemma {:induction false} PriceAllFirstError(products: map<int, Product>, inventory: map<int, StockRecord>,
                                              items: seq<Value>, k: int)
    requires 0 <= k < |items|
    requires forall j :: 0 <= j < k ==> PriceItem(products, inventory, items[j]).Ok?
    requires PriceItem(products, inventory, items[k]).Err?
    ensures PriceAll(products, inventory, items) == Err(PriceItem(products, inventory, items[k]).error)
    decreases |items|
  {
    var init := items[..|items| - 1];
    if k == |items| - 1 {
      PriceAllSucceeds(products, inventory, init);
      assert forall j :: 0 <= j < |init| ==> init[j] == items[j];
    } else {
      PriceAllFirstError(products, inventory, init, k);
    }
  }

  /** Once a prefix of the items fails, the whole list fails the same way. */
  lemma {:induction false} PriceAllPrefixError(products: map<int, Product>, inventory: map<int, StockRecord>,
                                               items: seq<Value>, i: int)
    requires 0 <= i <= |items|
    requires PriceAll(products, inventory, items[..i]).Err?
    ensures PriceAll(products, inventory, items) == PriceAll(products, inventory, items[..i])
    decreases |items| - i
  {
    if i < |items| {
      assert items[..i + 1][..i] == items[..i];
      PriceAllPrefixError(products, inventory, items, i + 1);
    } else {
      assert items[..i] == items;
    }
  }

  /** Two sales of one day get the same number exactly when the draws agree:
      nothing else tells their numbers apart. */
  lemma SaleNumberCollision(day: string, draw1: int, draw2: int)
    requires 1 <= draw1 <= 9999 && 1 <= draw2 <= 9999
    ensures SaleNumber(day, draw1) == SaleNumber(day, draw2) <==> draw1 == draw2
  {
    DrawTextInjective("SALE-" + day + "-", draw1, draw2);
  }

  /** The emptiness check after validation can never fire: validation already
      refuses an empty item list. */
  lemma EmptyItemsFailValidation(data: Request)
    requires "items" in data && IsEmpty(data["items"])
    ensures !AllFilled(data, SaleRequired)
  {
    assert !Filled(data, SaleRequired[0]);
  }

  /** An `items` value that is not a list passes validation when it is not
      empty, and prices to no lines: the sale is recorded with a zero subtotal. */
  lemma NonListItemsMakeEmptySale(products: map<int, Product>, inventory: map<int, StockRecord>, data: Request,
                                  cashier: int, number: string)
    requires "items" in data && !data["items"].Arr?
    requires Amount(data, "tax_amount").Some? && Amount(data, "discount_amount").Some?
    ensures PlanSale(products, inventory, data, cashier, number).Ok?
    ensures PlanSale(products, inventory, data, cashier, number).value.lines == []
    ensures PlanSale(products, inventory, data, cashier, number).value.sale.subtotal == 0
  {
    assert Items(data) == [];
  }

  /** One more item that prices extends the lines by its line. */
  lemma PriceAllSnoc(products: map<int, Product>, inventory: map<int, StockRecord>, items: seq<Value>, i: int,
                     lines: seq<Line>)
    requires 0 <= i < |items|
    requires PriceAll(products, inventory, items[..i]) == Ok(lines)
    requires PriceItem(products, inventory, items[i]).Ok?
    ensures PriceAll(products, inventory, items[..i + 1]) == Ok(lines + [PriceItem(products, inventory, items[i]).value])
  {
    assert items[..i + 1][..i] == items[..i];
  }

  /** The pricing loop: each item in turn is checked and priced, and its line
      total added to the subtotal; the first failing item stops the loop. */
  method PriceItems(products: map<int, Product>, inventory: map<int, StockRecord>, items: seq<Value>)
    returns (priced: Result<seq<Line>>, subtotal: int)
    ensures priced == PriceAll(products, inventory, items)
    ensures priced.Ok? ==> subtotal == Subtotal(priced.value)
  {
    subtotal := 0;
    var validated: seq<Line> := [];
    for i := 0 to |items|
      invariant PriceAll(products, inventory, items[..i]) == Ok(validated)
      invariant subtotal == Subtotal(validated)
    {
      var r := PriceItem(products, inventory, items[i]);
      if r.Err? {
        assert items[..i + 1][..i] == items[..i];
        PriceAllPrefixError(products, inventory, items, i + 1);
        return Err(r.error), subtotal;
      }
      PriceAllSnoc(products, inventory, items, i, validated);
      assert (validated + [r.value])[..|validated|] == validated;
      validated := validated + [r.value];
      subtotal := subtotal + r.value.lineTotal;
    }
    assert items[..|items|] == items;
    priced := Ok(validated);
  }

  /** The inserts of a priced sale: the sale row under the next sale id, then
      one `sale_items` row per line. */
  method RecordSale(db: Db, sale: Sale, lines: seq<Line>) returns (saleId: int)
    requires db.Valid()
    modifies db`sales, db`saleItems, db`nextSaleId
    ensures db.Valid()
    ensures saleId == old(db.nextSaleId) && db.nextSaleId == saleId + 1
    ensures db.sales == old(db.sales)[saleId := sale]
    ensures db.saleItems == old(db.saleItems) + SaleItems(saleId, lines)
  {
    saleId := db.nextSaleId;
    db.nextSaleId := saleId + 1;
    db.sales := db.sales[saleId := sale];
    assert db.SalesValid();
    for j := 0 to |lines|
      invariant db.saleItems == old(db.saleItems) + SaleItems(saleId, lines[..j])
      invariant db.sales == old(db.sales)[saleId := sale] && db.nextSaleId == saleId + 1
      invariant db.SalesValid()
    {
      assert lines[..j + 1][..j] == lines[..j];
      db.saleItems := db.saleItems + [SaleItemOf(saleId, lines[j])];
    }
    assert lines[..|lines|] == lines;
  }

  // ---------------------------------------------------------------------------
  // The handler

  /** SalesController::store. `today` is `date('Ymd')` and `draw` is `rand(1, 9999)`. */
  method Store(db: Db, current: Option<User>, data: Request, today: string, draw: int) returns (resp: Response<Receipt>)
    requires db.Valid()
    requires 1 <= draw <= 9999
    modifies db`sales, db`saleItems, db`nextSaleId
    ensures db.Valid()
    ensures !RequireAuth(current, SaleRoles).Granted? ==> resp == Denied(RequireAuth(current, SaleRoles))
    ensures RequireAuth(current, SaleRoles).Granted? && !AllFilled(data, SaleRequired) ==>
      resp == Failure(400, MissingRequiredFields)
    ensures resp.Success? <==>
      && RequireAuth(current, SaleRoles).Granted?
      && AllFilled(data, SaleRequired)
      && PlanSale(db.products, db.inventory, data, current.value.id, SaleNumber(today, draw)).Ok?
    ensures RequireAuth(current, SaleRoles).Granted? && AllFilled(data, SaleRequired) ==>
      var plan := PlanSale(db.products, db.inventory, data, current.value.id, SaleNumber(today, draw));
      plan.Err? ==> resp == Failure(ErrorCode(plan.error), plan.error)
    ensures resp.Failure? ==>
      db.sales == old(db.sales) && db.saleItems == old(db.saleItems) && db.nextSaleId == old(db.nextSaleId)
    ensures resp.Success? ==>
      var plan := PlanSale(db.products, db.inventory, data, current.value.id, SaleNumber(today, draw)).value;
      var id := old(db.nextSaleId);
      && resp == Success(201, Receipt(id, SaleNumber(today, draw), plan.sale.total))
      && db.sales == old(db.sales)[id := plan.sale]
      && db.saleItems == old(db.saleItems) + SaleItems(id, plan.lines)
      && db.nextSaleId == id + 1
    ensures db.inventory == old(db.inventory) && db.movements == old(db.movements)
  {
    var access := RequireAuth(current, SaleRoles);
    if !access.Granted? {
      return Denied(access);
    }
    var valid := ValidateRequired(data, SaleRequired);
    if !valid {
      return Failure(400, MissingRequiredFields);
    }
    // The emptiness check that follows validation is subsumed by it (EmptyItemsFailValidation).
    assert Filled(data, SaleRequired[1]);
    var user := access.user;
    var number := SaleNumber(today, draw);
    // Every check below comes before the first insert, so the rollback on
    // failure has nothing to undo.
    var priced, subtotal := PriceItems(db.products, db.inventory, Items(data));
    if priced.Err? {
      return Failure(ErrorCode(priced.error), priced.error);
    }
    var tax := Amount(data, "tax_amount");
    var discount := Amount(data, "discount_amount");
    if tax.None? || discount.None? {
      return Failure(500, MalformedNumber);
    }
    var total := subtotal + tax.value - discount.value;
    var sale := Sale(number, Coalesce(data, "customer_id", Null), user.id, subtotal, tax.value, discount.value,
                     total, data["payment_method"], Coalesce(data, "payment_status", Str("paid")),
                     Coalesce(data, "notes", Null));
    assert PlanSale(db.products, db.inventory, data, user.id, number) == Ok(Plan(sale, priced.value));
    var saleId := RecordSale(db, sale, priced.value);
    return Success(201, Receipt(saleId, number, total));
  }
}

=== FILE: storage.dfy ===
/** The relational store, as in-memory tables held by one object: a map from id
    to row per table, and append-only sequences for sale items, order items and
    inventory movements. Each handler names, in its frame, the tables it may
    write; a rollback puts back the tables its transaction wrote. */
module Storage {
  import opened Core

  datatype Product = Product(attrs: map<string, Value>, active: bool)

  /** A row of `inventory`, keyed by product id. */
  datatype StockRecord = StockRecord(quantity: int, threshold: int, lastRestocked: Option<int>)

  datatype Customer = Customer(attrs: map<string, Value>, active: bool)

  datatype Sale = Sale(
    number: string,
    customerId: Value,
    cashierId: int,
    subtotal: int,
    tax: int,
    discount: int,
    total: int,
    paymentMethod: Value,
    paymentStatus: Value,
    notes: Value)

  datatype SaleItem = SaleItem(saleId: int, productId: int, quantity: int, unitPrice: int, lineTotal: int)

  datatype Order = Order(
    number: string,
    customerId: Value,
    totalAmount: Value,
    status: string,
    paymentStatus: string,
    createdBy: int)

  datatype OrderItem = OrderItem(orderId: int, productId: int, quantity: int, unitPrice: int, totalPrice: int)

  /** `out` (stock reserved for an order), `restock` and `adjustment`. */
  datatype MovementKind = Out | Restock | Adjustment

  /** A row of `inventory_movements`. For `Out` the quantity is the amount taken;
      for the others it is the signed change. */
  datatype Movement = Movement(productId: int, kind: MovementKind, quantity: int, orderId: Option<int>, actor: int, notes: Value)

  datatype PaymentStatus = Pending | Completed

  /** A row of `payments`; the sale id and amount are stored as the client sent them. */
  datatype Payment = Payment(
    saleId: Value,
    reference: string,
    amount: Value,
    status: PaymentStatus,
    gatewayRef: Value,
    verifiedAt: Option<int>)

  /** The numeric `price` column of a product (integer minor units). */
  predicate Priced(p: Product) {
    "price" in p.attrs && p.attrs["price"].Int?
  }

  function Price(p: Product): int {
    if Priced(p) then p.attrs["price"].i else 0
  }

  /** Two stored values the database would find equal in `col = ?`: both
      non-null with the same text. */
  predicate SameText(a: Value, b: Value) {
    a != Null && b != Null && ToText(a) == ToText(b)
  }

  /** The unique keys of `products`: no two rows, active or not, share a SKU
      or a barcode. */
  predicate UniqueCodes(products: map<int, Product>) {
    forall i, j :: i in products && j in products && i != j ==>
      !SameText(Attr(products[i].attrs, "sku"), Attr(products[j].attrs, "sku")) &&
      !SameText(Attr(products[i].attrs, "barcode"), Attr(products[j].attrs, "barcode"))
  }

  /** No two active customers share a non-empty email. */
  predicate UniqueEmails(customers: map<int, Customer>) {
    forall i, j ::
      (i in customers && j in customers && i != j && customers[i].active && customers[j].active &&
       !IsEmpty(Attr(customers[i].attrs, "email")) && !IsEmpty(Attr(customers[j].attrs, "email"))) ==>
      !SameText(Attr(customers[i].attrs, "email"), Attr(customers[j].attrs, "email"))
  }

  // ---------------------------------------------------------------------------
  // The stock ledger

  /** The change a movement makes to its product's stock. */
  function Delta(m: Movement): int {
    if m.kind == Out then -m.quantity else m.quantity
  }

  /** The sum of the changes the movements make to product `p`. */
  function NetChange(ms: seq<Movement>, p: int): int
    decreases |ms|
  {
    if ms == [] then 0
    else NetChange(ms[..|ms| - 1], p) + (if ms[|ms| - 1].productId == p then Delta(ms[|ms| - 1]) else 0)
  }

  lemma NetChangeAppend(ms: seq<Movement>, m: Movement, p: int)
    ensures NetChange(ms + [m], p) == NetChange(ms, p) + (if m.productId == p then Delta(m) else 0)
  {
    assert (ms + [m])[..|ms|] == ms;
  }

  /** The net change of a log is the sum of the net changes of its parts. */
  lemma {:induction false} NetChangeConcat(a: seq<Movement>, b: seq<Movement>, p: int)
    ensures NetChange(a + b, p) == NetChange(a, p) + NetChange(b, p)
    decreases |b|
  {
    if b == [] {
      assert a + b == a;
    } else {
      var last := b[|b| - 1];
      assert a + b == (a + b[..|b| - 1]) + [last];
      NetChangeAppend(a + b[..|b| - 1], last, p);
      NetChangeConcat(a, b[..|b| - 1], p);
    }
  }

  /** The audit invariant: each product's stock is its opening quantity plus the
      changes logged for it. */
  ghost predicate Balanced(inventory: map<int, StockRecord>, movements: seq<Movement>, baseline: map<int, int>) {
    forall p :: p in inventory ==> p in baseline && inventory[p].quantity == baseline[p] + NetChange(movements, p)
  }

  /** The database handle every controller receives. */
  class Db {
    var products: map<int, Product>
    var inventory: map<int, StockRecord>
    var customers: map<int, Customer>
    var sales: map<int, Sale>
    var saleItems: seq<SaleItem>
    var orders: map<int, Order>
    var orderItems: seq<OrderItem>
    var movements: seq<Movement>
    var payments: map<int, Payment>
    var nextProductId: int
    var nextCustomerId: int
    var nextSaleId: int
    var nextOrderId: int
    var nextPaymentId: int
    /** The opening quantity of each product's stock, for the audit invariant. */
    ghost var baseline: map<int, int>

    /** What every request leaves true of the tables. Each part reads only
        the tables it is about, so a handler that leaves those tables alone
        keeps that part without further proof. */
    ghost predicate Valid()
      reads this
    {
      ProductsValid() && CustomersValid() && SalesValid() && OrdersValid() && PaymentsValid() && StockValid()
    }

    /** Product ids lie below their sequence, every product has a numeric
        price, and SKUs and barcodes are unique. */
    ghost predicate ProductsValid()
      reads this`products, this`nextProductId
    {
      (forall id :: id in products ==> id < nextProductId && Priced(products[id])) && UniqueCodes(products)
    }

    /** Customer ids lie below their sequence and active emails are unique. */
    ghost predicate CustomersValid()
      reads this`customers, this`nextCustomerId
    {
      (forall id :: id in customers ==> id < nextCustomerId) && UniqueEmails(customers)
    }

    ghost predicate SalesValid()
      reads this`sales, this`nextSaleId
    {
      forall id :: id in sales ==> id < nextSaleId
    }

    ghost predicate OrdersValid()
      reads this`orders, this`nextOrderId
    {
      forall id :: id in orders ==> id < nextOrderId
    }

    ghost predicate PaymentsValid()
      reads this`payments, this`nextPaymentId
    {
      forall id :: id in payments ==> id < nextPaymentId
    }

    /** Every stock row belongs to a product, and the stock agrees with the movement log. */
    ghost predicate StockValid()
      reads this`inventory, this`products, this`movements, this`baseline
    {
      (forall id :: id in inventory ==> id in products) && Balanced(inventory, movements, baseline)
    }

    /** An empty database; every id sequence starts at 1. */
    constructor ()
      ensures Valid()
      ensures products == map[] && inventory == map[] && customers == map[] && sales == map[]
      ensures orders == map[] && payments == map[]
      ensures saleItems == [] && orderItems == [] && movements == []
      ensures nextProductId == 1 && nextCustomerId == 1 && nextSaleId == 1 && nextOrderId == 1 && nextPaymentId == 1
    {
      products, inventory, customers, sales := map[], map[], map[], map[];
      saleItems, orders, orderItems, movements, payments := [], map[], [], [], map[];
      nextProductId, nextCustomerId, nextSaleId, nextOrderId, nextPaymentId := 1, 1, 1, 1, 1;
      baseline := map[];
    }
  }
}
